=== FILE: README.md ===
# CogniaPrompt — a verified model of the application logic

CogniaPrompt is a React front end that sends a rough prompt, together with a
chosen tone and persona, to a hosted Gemini model. It shows the optimized
prompt that comes back, scores it, and keeps the last fifty optimizations in
browser storage. A live voice overlay streams microphone audio to the model
and plays back the model's spoken replies.

This project models the logic inside the event handlers and helpers. Each
piece is kept in the same form as the source:

- `types.dfy` (module `Types`) holds the records and enumerations of
  `types.ts`, plus `Option` and `Result`.
- `text.dfy` (module `Text`) holds the string built-ins the code relies on:
  `trim`, `toLowerCase` and `includes`.
- `gemini.dfy` (module `Gemini`) covers `services/gemini.ts`:
  - the three-source key lookup, with placeholder and length validation;
  - the lazily created client, as a class `Service` whose `aiInstance` field
    is set at most once;
  - the request text;
  - the empty-answer check;
  - the first-match error classifier.

  The SDK's reply is a parameter.
- `app.dfy` (module `App`) covers `App.tsx`:
  - pure list functions: prepend and cap at 50, and retag;
  - a class `AppState` with the component's state and browser storage as a
    map, and one method per handler. `Optimize` calls the `Service`.
- `history_sidebar.dfy` (module `HistorySidebar`) covers the case-insensitive
  history filter and the inline tag editor state (`SidebarState`).
- `live_assistant.dfy` (module `LiveAssistant`) covers:
  - the transcript merge;
  - the binary-string/byte loops (`Decode`, `Encode`);
  - 16-bit little-endian sample packing;
  - channel de-interleaving (`DecodeAudioData` over an `array2`);
  - `CreateBlob`, with the store as written and with a corrected, clamping store;
  - the playback cursor and the set of playing sources (`LiveSession`).

  Time is counted in samples of the 24 kHz output context.
- `result_display.dfy` (module `ResultDisplay`) covers the score bands behind
  the bar and label colours, and the card's tab and copy state.

## Model

| member | source | states |
|---|---|---|
| Types.ToneValue | types.ts:21-27 | the string value of each `Tone` member, as the enum declares it |
| Types.RoleValue | types.ts:29-35 | the string value of each `Role` member, as the enum declares it |
| Text.Trim | services/gemini.ts:9 | `trim`: the leading and then the trailing white space dropped; its contract is stated by `TrimSpec`, `TrimStartSpec`, `TrimEndSpec` and `TrimIdempotent` |
| Text.TrimSpec | services/gemini.ts:9 | `trim` leaves a result no longer than the input that neither starts nor ends with white space; the result is empty exactly when the input is all white space |
| Text.TrimStartSpec | services/gemini.ts:9 | the leading part that is dropped is all white space, and what is left starts with a non-space character |
| Text.TrimEndSpec | services/gemini.ts:9 | the trailing part that is dropped is all white space, and what is left ends with a non-space character |
| Text.TrimIdempotent | App.tsx:68 | trimming twice is trimming once |
| Text.LowerChar | components/HistorySidebar.tsx:19 | a character changes exactly when it is an ASCII capital, and it becomes the small letter 32 code points higher |
| Text.Lower | components/HistorySidebar.tsx:19 | lower-casing keeps the length and maps each character by `LowerChar` |
| Text.LowerIdempotent | components/HistorySidebar.tsx:19-22 | lower-casing a lower-cased string changes nothing |
| Text.Contains | components/HistorySidebar.tsx:21-22 | `includes`: the pattern is a prefix of the text or of one of its tails; `ContainsIff` states its meaning |
| Text.ContainsIff | components/HistorySidebar.tsx:21-22 | `includes` holds exactly when the pattern occurs at some position |
| Text.ContainsOnlyCharsOf | services/gemini.ts:109-118 | a pattern holding a character the text lacks does not occur in the text |
| Text.ContainsMiddle | services/gemini.ts:66-70 | a string contains whatever is written in its middle |
| Gemini.FirstNonEmpty | services/gemini.ts:9-20 | the result is empty only when every candidate is empty; otherwise it is the first non-empty candidate, and every earlier one is empty |
| Gemini.KeySources | services/gemini.ts:9-20 | the trimmed value of `API_KEY`, of `VITE_GEMINI_API_KEY` when `import.meta` exists and of `GEMINI_API_KEY` when `process.env` exists, in that order; a source whose guard fails gives "" |
| Gemini.CandidateKeyChain | services/gemini.ts:9-20 | the first-non-empty form equals the chain of `if (!apiKey ...)` fallbacks over `API_KEY`, `VITE_GEMINI_API_KEY` and `GEMINI_API_KEY` |
| Gemini.CandidateKeyTrimmed | services/gemini.ts:9-20 | the key chosen is already trimmed |
| Gemini.ApiKeyOutcome | services/gemini.ts:22-41 | the key is accepted exactly when it is no placeholder and has at least 20 characters; the placeholders are rejected with their own message before the length check; anything else fails with the key-missing message |
| Gemini.GetApiKey | services/gemini.ts:7-42 | the sequential reassignments and checks of getApiKey yield exactly `ApiKeyOutcome` |
| Gemini.AcquireClient | services/gemini.ts:45-54 | an existing client is returned unchanged; without one the key is validated, and a client exists afterwards exactly when validation succeeds, built on a key of at least 20 characters |
| Gemini.Service.constructor | services/gemini.ts:45 | the module starts with no instance (`aiInstance = null`) |
| Gemini.Service.GetAI | services/gemini.ts:45-54 | a failed validation leaves the instance unset, so the next call validates again; a success stores the client; a stored client is reused |
| Gemini.AdditionalContext | services/gemini.ts:70 | the additional context is the extra instructions, or "None" when they are absent or empty, and is never empty |
| Gemini.RequestText | services/gemini.ts:66-70 | the request text: the fixed header, the prompt in quotes, then the tone, the role and the additional context under their headings; its properties are stated by `LayoutPieces` and the `RequestText…` lemmas |
| Gemini.LayoutPieces | services/gemini.ts:66-70 | the request's layout opens with the header, the prompt and its closing quote; contains the tone and the role; ends with the context; holds the prompt at the header's length; and is as long as its pieces together |
| Gemini.RequestTextStartsWithPrompt | services/gemini.ts:66-67 | the request opens with the fixed header and the prompt verbatim, closed by a quote |
| Gemini.RequestTextNamesToneAndRole | services/gemini.ts:68-69 | the request contains the tone's and the role's string values |
| Gemini.RequestTextEndsWithContext | services/gemini.ts:70 | the request ends with the additional context |
| Gemini.RequestTextDeterminesPrompt | services/gemini.ts:66-70 | two requests with the same tone, role and context are equal only when their prompts are equal |
| Gemini.NoRuleMatches | services/gemini.ts:109-120 | none of the four rules applies: no "API key", no 401/unauthorized, no 403/forbidden, no 429/quota/RESOURCE_EXHAUSTED and no code 429 |
| Gemini.ClassifyError | services/gemini.ts:107-123 | the message thrown on is never empty; the rules apply in order: a message naming the "API key" is re-thrown as it is; otherwise 401 or "unauthorized" gives the invalid-key text; otherwise 403 or "forbidden" gives the permission text; otherwise 429, "quota", "RESOURCE_EXHAUSTED" or code 429 gives the quota text; a message no rule matches is re-thrown, and a missing or empty one becomes the default text |
| Gemini.MissingKeyErrorPassesThrough | services/gemini.ts:38 | the key-missing error passes the classifier unchanged |
| Gemini.UnmatchedMessagePassesThrough | services/gemini.ts:121-122 | any non-empty message that no rule matches, with a code that is not 429, is re-thrown with its own text |
| Gemini.NoRuleMatchesWithout | services/gemini.ts:109-120 | a message without the characters 'y', '4', 'u', 'b', 'q' and 'R', and without code 429, matches no rule |
| Gemini.NetworkErrorMatchesNoRule | services/gemini.ts:109-120 | an ordinary failure text, "Network error", matches no rule unless its code is 429 |
| Gemini.ApiKeyRuleComesFirst | services/gemini.ts:109-111 | a message opening with "API key" is re-thrown whatever follows it ("401", "forbidden", "quota") and whatever its code: the first rule wins |
| Gemini.RateLimitCodeOverridesMessage | services/gemini.ts:118-120 | code 429 turns "Network error", which no word rule matches, into the quota text |
| Gemini.NetworkErrorPassesThrough | services/gemini.ts:121-122 | without code 429, "Network error" is re-thrown as it is |
| Gemini.MissingMessageGetsDefault | services/gemini.ts:122 | an error without a message gets the default text |
| Gemini.EmptyResponseErrorPassesThrough | services/gemini.ts:105 | "No response from AI" reaches the caller unchanged |
| Gemini.Outcome | services/gemini.ts:62-123 | the settled value of optimizePrompt: a key error, a rejection or a parse error goes through the classifier, an empty answer fails with "No response from AI", a parsed answer is the result; its properties are stated by `OutcomeSuccessNeedsParsedAnswer`, `EmptyAnswerFails` and `ShortKeyFails` |
| Gemini.OutcomeSuccessNeedsParsedAnswer | services/gemini.ts:62-123 | optimizePrompt yields a result exactly when a client is obtained and the answer is non-empty and parses; the result is the parsed value; every failure carries a non-empty message |
| Gemini.EmptyAnswerFails | services/gemini.ts:104-105 | a missing or empty answer fails with "No response from AI", which is also what the catch block makes of that error |
| Gemini.ShortKeyFails | services/gemini.ts:27-39 | with no client yet and a key that is short or empty and is not a placeholder, the call fails with the key-missing message |
| Gemini.Service.OptimizePrompt | services/gemini.ts:56-124 | the settled value is `Outcome`; the request is sent, with the request text, exactly when a client was obtained |
| HistorySidebar.Matches | components/HistorySidebar.tsx:20-23 | an item matches when its lower-cased original contains the lower-cased filter, or it has a tag whose lower-cased form contains it |
| HistorySidebar.KeepMatching | components/HistorySidebar.tsx:20-23 | the kept items form a subsequence of the history; an item is kept exactly when it matches; and each matching item is kept as many times as it occurs, each other item not at all |
| HistorySidebar.FilterHistory | components/HistorySidebar.tsx:17-24 | an empty filter returns the history unchanged; otherwise the result is an order-preserving subsequence that holds every occurrence of each item whose lower-cased original, or (when it has one) lower-cased tag, contains the lower-cased filter, and no other item |
| HistorySidebar.KeepMatchingAll | components/HistorySidebar.tsx:20-23 | a list whose every item matches passes through whole |
| HistorySidebar.FilterIdempotent | components/HistorySidebar.tsx:17-24 | filtering the filtered list again with the same filter changes nothing |
| HistorySidebar.FilterCaseInsensitive | components/HistorySidebar.tsx:19 | filtering with a filter and with its lower-cased form give the same list |
| HistorySidebar.SidebarState.constructor | components/HistorySidebar.tsx:13-15 | filter, editing id and tag text start empty |
| HistorySidebar.SidebarState.SetFilter | components/HistorySidebar.tsx:13 | the filter becomes the typed text |
| HistorySidebar.SidebarState.EditTag | components/HistorySidebar.tsx:26-30 | the editing id becomes the item's id, and the tag text is seeded with its tag or "" |
| HistorySidebar.SidebarState.ChangeTagValue | components/HistorySidebar.tsx:15 | the tag text becomes the typed text |
| HistorySidebar.SidebarState.SaveTag | components/HistorySidebar.tsx:32-36 | `(id, tagValue)` is handed on, then the editing id is cleared and the text reset to "" |
| App.NormalizeTag | App.tsx:68 | no tag when the text is all white space; otherwise the trimmed text, which is non-empty and trimmed |
| App.Prepend | App.tsx:71 | the new item comes first; the length is min(old length + 1, 50); the rest is a prefix of the old history |
| App.PrependAllKeepsNewest | App.tsx:71 | after any number of optimizations the history is the newest entries, newest first, then the older history, cut to 50 |
| App.PrependAllBounded | App.tsx:71 | a history within 50 entries stays within 50 |
| App.Retag | App.tsx:81-86 | length and order are kept; only entries with the given id change, only in their tag, which becomes the normalized text |
| App.RetagIdempotent | App.tsx:81-86 | saving the same tag twice is saving it once |
| App.RetagIgnoresSurroundingSpace | App.tsx:83 | a tag text and its trimmed form give the same history |
| App.AwaitOptimizePrompt | App.tsx:60 | the awaited call settles to `Gemini.Outcome` for the client held before the call, and a rejection always carries a non-empty message; the request sent is the request text for the given prompt, tone and role with no extra instructions, exactly when a client was obtained |
| App.AppState.constructor | App.tsx:10-20 | the initial state: the optimizer view, an empty prompt, the professional tone, the general role, no result, an empty history, no error, no tag, the live overlay closed |
| App.AppState.LoadSavedHistory | App.tsx:38-47 | a parseable saved history replaces the current one; a missing or unparseable entry leaves it; a reload after a save shows the saved history |
| App.AppState.SaveHistory | App.tsx:49-52 | the history on screen and the stored value are both the new list |
| App.AppState.Optimize | App.tsx:54-79 | a prompt of only white space changes nothing and sends no request; otherwise the request sent is the request text for the current prompt, tone and role with no extra instructions (none when no client can be had), the call settles to `Gemini.Outcome` and, on success, the result is shown, the new item is prepended (capped at 50) and stored, the tag input cleared and the error unset; on failure the error is the call's message and history, storage, result and tag are unchanged; the spinner stops either way |
| App.AppState.Settle | App.tsx:60-78 | the part of the handler after the await: a success prepends and persists, a failure records its message, or the fixed "An unexpected error occurred during optimization." when the message is empty; the busy flag is always cleared |
| App.AppState.SaveOnSnapshot | App.tsx:61-73 | the success branch as written: the result is shown, and the new item is prepended to the history the request started from, not the current one, and stored |
| App.AppState.ClearDuringRequestAsWritten | App.tsx:71-72 | with the handler as written, clearing the history while a request is in flight and then succeeding leaves the new item followed by the cleared entries |
| App.AppState.ClearDuringRequestCorrected | App.tsx:71-72 | with the list built from the current history, the same interleaving leaves only the new item, and storage holds it |
| App.AppState.UpdateTag | App.tsx:80-85 | the history becomes `Retag` of the old one; storage is the old storage with only the history key rewritten to it |
| App.AppState.SaveEditedTag | components/HistorySidebar.tsx:32-36 | the sidebar's save retags the history with the editor's text, rewrites only the history key of storage, and closes the editor |
| App.AppState.SelectHistory | App.tsx:88-93 | the view is the optimizer, the prompt is the item's original and the result is the item's result |
| App.AppState.ClearHistory | App.tsx:95-97 | the history and the stored value are both empty |
| App.AppState.Navigate | App.tsx:293 | the current view becomes the one chosen |
| App.AppState.SetLiveMode | App.tsx:295 | the live overlay is shown or hidden as asked |
| LiveAssistant.AppendTranscript | components/LiveAssistant.tsx:95-111 | a fragment from the last turn's speaker extends that turn and keeps the length; any other fragment appends one new turn; earlier turns are untouched; the last turn is the fragment's speaker's |
| LiveAssistant.AppendTranscriptText | components/LiveAssistant.tsx:95-111 | the concatenated transcript grows by exactly the fragment |
| LiveAssistant.AppendTranscriptAlternating | components/LiveAssistant.tsx:96-100 | if no two neighbouring turns share a speaker before the merge, none do after it |
| LiveAssistant.ApplyTranscriptions | components/LiveAssistant.tsx:93-112 | one message's transcriptions: the model's fragment merged first, then the user's; `ApplyTranscriptionsSpec` states what that does to the transcript |
| LiveAssistant.ApplyTranscriptionsSpec | components/LiveAssistant.tsx:93-112 | one message adds the model's fragment, then the user's, to the transcript text, keeps turns alternating, and ends on a user turn when there was user input |
| LiveAssistant.Btoa | components/LiveAssistant.tsx:48 | the encoded text stands for exactly the binary string given |
| LiveAssistant.Atob | components/LiveAssistant.tsx:22 | `atob`: the binary string a Base64 text stands for; `DecodeEncodeRoundTrip` and the `Btoa` contract tie it to `Btoa` |
| LiveAssistant.BytesOf | components/LiveAssistant.tsx:23-26 | one byte per character, byte `k` being the code of character `k` |
| LiveAssistant.BinaryOf | components/LiveAssistant.tsx:45-47 | one character per byte, character `k` having the code of byte `k` |
| LiveAssistant.BytesOfBinaryOf | components/LiveAssistant.tsx:21-49 | bytes turned into a binary string and back are unchanged |
| LiveAssistant.BinaryOfBytesOf | components/LiveAssistant.tsx:21-49 | a binary string turned into bytes and back is unchanged |
| LiveAssistant.Decode | components/LiveAssistant.tsx:21-28 | a fresh byte array as long as the decoded binary string, byte `i` being the code of character `i` |
| LiveAssistant.Encode | components/LiveAssistant.tsx:43-49 | the base64 of the binary string of the array's bytes |
| LiveAssistant.DecodeEncodeRoundTrip | components/LiveAssistant.tsx:21-49 | decoding what `encode` produced gives back the same bytes |
| LiveAssistant.SampleOf | components/LiveAssistant.tsx:31 | the 16-bit two's-complement sample two little-endian bytes hold |
| LiveAssistant.LowByte | components/LiveAssistant.tsx:57 | the low byte of a sample |
| LiveAssistant.HighByte | components/LiveAssistant.tsx:57 | the high byte of a sample |
| LiveAssistant.SampleOfMeaning | components/LiveAssistant.tsx:31 | the sample read from two bytes is their little-endian value modulo 2^16, and negative exactly when the high byte's top bit is set |
| LiveAssistant.ByteSplitMeaning | components/LiveAssistant.tsx:57 | the low byte is the sample modulo 256, the two bytes make up the sample modulo 2^16, and the high byte carries the sign bit |
| LiveAssistant.SampleBytesRoundTrip | components/LiveAssistant.tsx:31 | a 16-bit sample split into little-endian bytes and read back is unchanged |
| LiveAssistant.ByteSampleRoundTrip | components/LiveAssistant.tsx:57 | two bytes read as a sample and split again are unchanged |
| LiveAssistant.PairsToSamples | components/LiveAssistant.tsx:31 | an even number of bytes holds half as many samples |
| LiveAssistant.Int16View | components/LiveAssistant.tsx:31 | viewing bytes as samples fails with a RangeError exactly when the length is odd; otherwise there is one sample per byte pair |
| LiveAssistant.Int16ViewAt | components/LiveAssistant.tsx:31 | sample `k` of the view is read, little-endian, from bytes `2k` and `2k+1` |
| LiveAssistant.Int16Bytes | components/LiveAssistant.tsx:57 | viewing samples as bytes doubles the length |
| LiveAssistant.Int16BytesAt | components/LiveAssistant.tsx:57 | bytes `2k` and `2k+1` are the low and the high byte of sample `k` |
| LiveAssistant.ViewOfPackedSamples | components/LiveAssistant.tsx:31 | samples packed into bytes are read back as the same samples |
| LiveAssistant.PackedViewOfBytes | components/LiveAssistant.tsx:57 | an even number of bytes read as samples packs back into the same bytes |
| LiveAssistant.Int16Wrap | components/LiveAssistant.tsx:54 | the stored value is congruent to the input modulo 2^16 |
| LiveAssistant.WrapFlipsFullScale | components/LiveAssistant.tsx:54 | a full-scale positive sample, 32768, is stored as -32768 |
| LiveAssistant.Int16Clamp | components/LiveAssistant.tsx:54 | the corrected store (not what line 54 does): the stored value is the 16-bit value nearest the input: in-range values are kept, and the sign is kept |
| LiveAssistant.WrapAgreesWithClampInRange | components/LiveAssistant.tsx:54 | wrapping and clamping agree on every in-range value and differ at full scale |
| LiveAssistant.WrapAll | components/LiveAssistant.tsx:52-55 | the store as written: one stored sample per input sample, each congruent to the input modulo 2^16 |
| LiveAssistant.ClampAll | components/LiveAssistant.tsx:54 | the corrected store: one stored sample per input sample, each the nearest 16-bit value |
| LiveAssistant.StoresAgreeInRange | components/LiveAssistant.tsx:54 | the two stores give the same samples when every input is in the 16-bit range, and differ on a single full-scale sample |
| LiveAssistant.PackSamples | components/LiveAssistant.tsx:57 | the stored samples are viewed as bytes and encoded: the data is the base64 of their little-endian bytes |
| LiveAssistant.CreateBlob | components/LiveAssistant.tsx:51-60 | the MIME type is always `audio/pcm;rate=16000`, and the data is the base64 of the bytes of the samples stored modulo 2^16, as the Int16Array store does |
| LiveAssistant.CreateBlobClamped | components/LiveAssistant.tsx:51-60 | the corrected createBlob: the same MIME type, and the data is the base64 of the bytes of the clamped samples |
| LiveAssistant.BlobRoundTrip | components/LiveAssistant.tsx:31 | whatever samples were stored, the receiving side decodes the blob's data back to exactly those samples |
| LiveAssistant.SampleIndex | components/LiveAssistant.tsx:37 | the interleaved position `i * numChannels + channel` read for frame `i` of a channel; `SampleIndexInRange` and `SampleIndexExactlyOnce` state its bounds and that it covers each sample once |
| LiveAssistant.SampleIndexInRange | components/LiveAssistant.tsx:36-37 | the sample read for a channel and frame of a whole frame lies inside the data |
| LiveAssistant.SampleIndexExactlyOnce | components/LiveAssistant.tsx:32-38 | de-interleaving reads every sample of whole frames exactly once: indices are in range, every index is reached, and no two channel/frame pairs share one |
| LiveAssistant.DecodeAudioData | components/LiveAssistant.tsx:30-41 | an odd byte length fails with RangeError; no channels or no frames fail with NotSupportedError; otherwise the buffer has `numChannels` channels of `length / numChannels` frames, and channel `c`, frame `i` holds sample `i * numChannels + c` |
| LiveAssistant.LiveSession.constructor | components/LiveAssistant.tsx:11-18 | an empty transcript, the cursor at 0 and no playing sources |
| LiveAssistant.LiveSession.CatchUp | components/LiveAssistant.tsx:116 | the cursor becomes the later of itself and the clock |
| LiveAssistant.LiveSession.Start | components/LiveAssistant.tsx:118-124 | the chunk starts at the cursor, after everything already playing ends; the cursor advances by its duration; the source joins the set; playing sources never overlap |
| LiveAssistant.LiveSession.SourceEnded | components/LiveAssistant.tsx:121 | a source that ends leaves the set |
| LiveAssistant.LiveSession.Interrupt | components/LiveAssistant.tsx:127-131 | every playing source is stopped, the set is emptied and the cursor reset to 0 |
| LiveAssistant.LiveSession.MergeTranscriptions | components/LiveAssistant.tsx:93-112 | the transcript becomes `ApplyTranscriptions` of the old one: the model's fragment merged first, then the user's |
| LiveAssistant.LiveSession.OnMessage | components/LiveAssistant.tsx:92-132 | transcriptions are merged model-first; a non-empty audio chunk starts at max(cursor, clock), so never before now and never before the previous chunk's end, and without an interruption the cursor ends at the chunk's start plus its frames (half its byte length); without audio the cursor stays where it was; an odd-length payload throws after the cursor has moved and skips the rest; an interruption then stops everything and resets the cursor |
| ResultDisplay.ScoreBand | components/ResultDisplay.tsx:47 | a score above 80 is green, above 60 and up to 80 yellow, and up to 60 red; the bands are disjoint and cover every score |
| ResultDisplay.ScoreBandMonotone | components/ResultDisplay.tsx:47 | a higher score never gets a worse band |
| ResultDisplay.BarClass | components/ResultDisplay.tsx:47 | the bar's nested conditional picks the colour of the score's band |
| ResultDisplay.LabelClass | components/ResultDisplay.tsx:51 | the label's nested conditional picks the colour of the score's band |
| ResultDisplay.ColoursAgree | components/ResultDisplay.tsx:47-51 | two scores share a bar colour exactly when they share a label colour, and exactly when they fall in the same band |
| ResultDisplay.ResultView.constructor | components/ResultDisplay.tsx:10-11 | the active tab starts at "optimized", and nothing is marked copied |
| ResultDisplay.ResultView.SelectTab | components/ResultDisplay.tsx:24-36 | the chosen tab becomes active |
| ResultDisplay.ResultView.CopyToClipboard | components/ResultDisplay.tsx:13-17 | the text written is the text given, and `copied` becomes true |

## Left out

- JSON: `JSON.parse` and `JSON.stringify` are not modelled. Storage holds either a serialized history or text that does not parse. Valid JSON that is not an array (`null`, a number) would be set as the history by the source; that case is not modelled.
- Browser storage itself is a map from key to stored value.
- A loaded history longer than 50 entries stays that long until the next optimization, as in the source.
- The network:
  - The SDK calls (`generateContent`, `live.connect`, `sendRealtimeInput`) are not modelled.
  - The model name, the system instruction and the response schema are not modelled.
  - Whatever the SDK answers or throws is a parameter (`Gemini.Reply`).
  - The vendor enforces the response schema.
- `crypto.randomUUID` and `Date.now` are parameters of `App.AppState.Optimize`. Ids are assumed unique.
- `App.AppState.Optimize`: the `await` is treated as atomic, and the new list is built from the history current when the request settles. The Optimize button is disabled while a request is in flight (App.tsx:214), so two optimizations never overlap. The sidebar stays usable, though, and the source's handler builds the new list from the history of the render that started the request. The one interleaving this changes is modelled separately; see the second row under "## Findings".
- `window.scrollTo`, the JSX, the CSS classes beyond the score colours, `components/Layout.tsx`, `vite.config.ts` and `console` logging are not modelled.
- The help texts for tones and roles (App.tsx:21-35) are not modelled.
- `Text.Lower`: `toLowerCase` is modelled on ASCII letters only. Other Unicode case mappings are not modelled.
- Characters are Unicode scalar values, not UTF-16 code units. `length` and `includes` on text outside the Basic Multilingual Plane differ from the source.
- Base64 (section 4 of RFC 4648) is not modelled. `btoa` and `atob` are browser built-ins; `LiveAssistant.Base64` keeps the binary string a base64 text stands for.
- Payloads that are not valid base64, and binary strings with a character above 255, make the browser throw. The model does not represent them.
- Floating point:
  - The division by 32768 in `decodeAudioData` is not modelled; channel data is kept as the 16-bit sample.
  - The multiplication by 32768 in `createBlob` is not modelled. `CreateBlob` takes the products already cut to whole numbers.
  - `AudioBuffer.duration` and `currentTime` are seconds in the source; the model counts 24 kHz samples.
- `LiveAssistant.DecodeAudioData`: the limit on the number of channels a context supports is not modelled. The trailing partial frame, when the sample count is not a multiple of the channel count, is dropped as the buffer length drops it; the source's extra loop pass writes out of range and is ignored.
- `LiveAssistant.LiveSession.OnMessage`: an `outputTranscription` or `inputTranscription` whose `text` is undefined is not modelled. When it extends the last turn of the same role, the source appends the word "undefined" to that turn's text; when it starts a new turn, the source stores `text: undefined`, which a string cannot represent.
- Audio I/O is not modelled: `getUserMedia`, the audio contexts, the script processor, connecting sources and the `stop()` calls themselves. The model returns the set of sources stopped.
- `startSession` and `stopSession` are not modelled: the `isActive`/`isConnecting` flags, and the session that is never closed (components/LiveAssistant.tsx:154-161) are resource lifecycle.
- The clipboard write and the two-second reset of `copied` (components/ResultDisplay.tsx:14-16) are not modelled. `CopyToClipboard` returns the text written.
- Score text: the bar width `score%` and the label `score/100` (components/ResultDisplay.tsx:48, 51) are number formatting and are not modelled. Scores are integers here; fractional scores are not modelled.

## Findings

| source | as written | input that shows it | evidently intended | confidence | as-written member | corrected member |
|---|---|---|---|---|---|---|
| components/LiveAssistant.tsx:54 | `int16[i] = data[i] * 32768` stores the product modulo 2^16, so a full-scale positive sample becomes the most negative value | a microphone sample of exactly 1.0, so the product is 32768, which is stored as -32768 | scale into the 16-bit range and clamp, so 1.0 becomes 32767 | medium; not executed | LiveAssistant.WrapFlipsFullScale | LiveAssistant.Int16Clamp |
| App.tsx:71-72 | the new list is `[newHistoryItem, ...history]`, with `history` taken from the render that started the request | history `[a]`; the user presses "Clear All" (or saves a tag) while the request is in flight; the request succeeds; the history is `[new, a]` again (or the tag edit is lost) | build the new list from the history current when the request settles, so the clear or the tag edit sticks | medium; not executed | App.AppState.ClearDuringRequestAsWritten | App.AppState.ClearDuringRequestCorrected |

`CreateBlob` models the store as written (`WrapAll`); `CreateBlobClamped` uses the corrected, clamping store (`ClampAll`). `StoresAgreeInRange` shows that the two differ only on samples outside the 16-bit range. `BlobRoundTrip` holds for both. `App.AppState.Optimize` and `Settle` use the corrected list update; `SaveOnSnapshot` is the update as written.

=== FILE: app.dfy ===
/** The application component (App.tsx): its state, the saved history in
    browser storage and the handlers that change them. */
module App {
  import opened Types
  import opened Text
  import Gemini
  import HistorySidebar

  /** At most this many items are kept after an optimization. */
  const MaxHistory: nat := 50

  /** The storage key the history is saved under. */
  const HistoryKey := "cogniaprompt_history"

  /** Shown when the thrown error carries no message. */
  const UnexpectedError := "An unexpected error occurred during optimization."

  /** What browser storage holds under a key: the JSON text of a history list,
      or text that `JSON.parse` rejects (the empty string among them). */
  datatype Stored = Serialized(items: seq<PromptHistoryItem>) | Unparseable(raw: string)

  /** `text.trim() || undefined`: the trimmed text, or no tag at all when
      nothing but white space was typed. */
  function NormalizeTag(text: string): (t: Option<string>)
    ensures t.None? <==> AllSpace(text)
    ensures t.Some? ==> t.value == Trim(text) && t.value != [] && Trim(t.value) == t.value
  {
    TrimSpec(text);
    TrimIdempotent(text);
    if Trim(text) == [] then None else Some(Trim(text))
  }

  function Min(a: int, b: int): int
  {
    if a < b then a else b
  }

  /** `[item, ...history].slice(0, 50)`: the new item first, then the newest
      of the older items, at most fifty in all. */
  function Prepend(item: PromptHistoryItem, history: seq<PromptHistoryItem>): (r: seq<PromptHistoryItem>)
    ensures |r| == Min(|history| + 1, MaxHistory)
    ensures r[0] == item
    ensures r[1..] == history[..|r| - 1]
  {
    var all := [item] + history;
    all[..Min(|all|, MaxHistory)]
  }

  /** The history after optimizing each of `items` in turn. */
  function PrependAll(history: seq<PromptHistoryItem>, items: seq<PromptHistoryItem>): seq<PromptHistoryItem>
    decreases |items|
  {
    if items == [] then history else PrependAll(Prepend(items[0], history), items[1..])
  }

  function Reverse<T>(s: seq<T>): seq<T>
    decreases |s|
  {
    if s == [] then [] else Reverse(s[1..]) + [s[0]]
  }

  lemma {:induction false} ReverseLength<T>(s: seq<T>)
    ensures |Reverse(s)| == |s|
    decreases |s|
  {
    if s != [] {
      ReverseLength(s[1..]);
    }
  }

  /** After one or more optimizations (or none, from a history within the
      bound) the history is the newest fifty entries, newest first: the new
      items in reverse order of arrival, then the older history. */
  lemma {:induction false} PrependAllKeepsNewest(history: seq<PromptHistoryItem>, items: seq<PromptHistoryItem>)
    requires |history| <= MaxHistory || items != []
    ensures var all := Reverse(items) + history;
      PrependAll(history, items) == all[..Min(|all|, MaxHistory)]
    decreases |items|
  {
    if items == [] {
      assert Reverse(items) + history == history;
    } else {
      var x, rest := items[0], items[1..];
      var p := Prepend(x, history);
      PrependAllKeepsNewest(p, rest);
      ReverseLength(rest);
      var a := Reverse(rest);
      assert Reverse(items) + history == a + ([x] + history);
      var m := Min(|a| + |p|, MaxHistory);
      assert m == Min(|a| + |history| + 1, MaxHistory);
      assert p == ([x] + history)[..|p|];
      forall k | 0 <= k < m
        ensures (a + p)[k] == (a + ([x] + history))[k]
      {
      }
      assert (a + p)[..m] == (a + ([x] + history))[..m];
    }
  }

  /** A history that starts within the bound stays within it. */
  lemma {:induction false} PrependAllBounded(history: seq<PromptHistoryItem>, items: seq<PromptHistoryItem>)
    requires |history| <= MaxHistory
    ensures |PrependAll(history, items)| <= MaxHistory
    decreases |items|
  {
    if items != [] {
      PrependAllBounded(Prepend(items[0], history), items[1..]);
    }
  }

  /** handleUpdateTag's `history.map(...)`: the item with the given id gets the
      normalized tag; every other item, and every other field, is unchanged. */
  function Retag(history: seq<PromptHistoryItem>, id: string, newTag: string): (r: seq<PromptHistoryItem>)
    ensures |r| == |history|
    ensures forall k :: 0 <= k < |r| ==> r[k].(tag := history[k].tag) == history[k]
    ensures forall k :: 0 <= k < |r| && history[k].id == id ==> r[k].tag == NormalizeTag(newTag)
    ensures forall k :: 0 <= k < |r| && history[k].id != id ==> r[k] == history[k]
  {
    seq(|history|, k requires 0 <= k < |history| =>
      if history[k].id == id then history[k].(tag := NormalizeTag(newTag)) else history[k])
  }

  /** Saving the same tag twice is saving it once. */
  lemma RetagIdempotent(history: seq<PromptHistoryItem>, id: string, newTag: string)
    ensures Retag(Retag(history, id, newTag), id, newTag) == Retag(history, id, newTag)
  {
  }

  /** Retagging with text that only differs in surrounding white space gives
      the same history. */
  lemma RetagIgnoresSurroundingSpace(history: seq<PromptHistoryItem>, id: string, newTag: string)
    ensures Retag(history, id, Trim(newTag)) == Retag(history, id, newTag)
  {
    TrimSpec(newTag);
    TrimSpec(Trim(newTag));
    TrimIdempotent(newTag);
    assert NormalizeTag(Trim(newTag)) == NormalizeTag(newTag);
  }

  /** `await optimizePrompt(inputPrompt, tone, role)`: App passes no extra
      instructions. `request` is the text sent to the model, if any. */
  method AwaitOptimizePrompt(service: Gemini.Service, env: Gemini.Env, prompt: string, tone: Tone, role: Role, reply: Gemini.Reply)
    returns (request: Option<string>, r: Result<OptimizationResult, string>)
    requires service.Valid()
    modifies service
    ensures service.Valid()
    ensures r == Gemini.Outcome(old(service.aiInstance), env, reply)
    ensures r.Failure? ==> r.error != []
    ensures request == if Gemini.AcquireClient(old(service.aiInstance), env).Success?
      then Some(Gemini.RequestText(prompt, tone, role, None)) else None
  {
    request, r := service.OptimizePrompt(env, prompt, tone, role, None, reply);
  }

  /** The application component's state, with browser storage as a map from
      key to stored text. */
  class AppState {
    var currentView: string
    var inputPrompt: string
    var tone: Tone
    var role: Role
    var isOptimizing: bool
    var result: Option<OptimizationResult>
    var history: seq<PromptHistoryItem>
    var error: Option<string>
    var activeTag: string
    var showLiveMode: bool
    var storage: map<string, Stored>

    /** Storage holds the history shown on screen. */
    ghost predicate Persisted()
      reads this
    {
      HistoryKey in storage && storage[HistoryKey] == Serialized(history)
    }

    /** The first render, over whatever storage already holds. */
    constructor (saved: map<string, Stored>)
      ensures currentView == "optimizer" && inputPrompt == "" && tone == Professional && role == General
      ensures !isOptimizing && result == None && history == [] && error == None
      ensures activeTag == "" && !showLiveMode && storage == saved
    {
      currentView := "optimizer";
      inputPrompt := "";
      tone := Professional;
      role := General;
      isOptimizing := false;
      result := None;
      history := [];
      error := None;
      activeTag := "";
      showLiveMode := false;
      storage := saved;
    }

    /** The mount effect: a parseable saved history replaces the current one;
        a missing entry or one that does not parse leaves it as it is. So a
        reload after a save shows the saved history again. */
    method LoadSavedHistory()
      modifies this`history
      ensures HistoryKey in storage && storage[HistoryKey].Serialized? ==> history == storage[HistoryKey].items
      ensures !(HistoryKey in storage && storage[HistoryKey].Serialized?) ==> history == old(history)
      ensures old(Persisted()) ==> history == old(history)
    {
      if HistoryKey in storage {
        var saved := storage[HistoryKey];
        match saved
        case Serialized(items) =>
          history := items;
        case Unparseable(_) =>
      }
    }

    /** saveHistory: show the new history and write it to storage. */
    method SaveHistory(newHistory: seq<PromptHistoryItem>)
      modifies this`history, this`storage
      ensures history == newHistory
      ensures storage == old(storage)[HistoryKey := Serialized(newHistory)]
      ensures Persisted()
    {
      history := newHistory;
      storage := storage[HistoryKey := Serialized(newHistory)];
    }

    /** handleOptimize. A prompt of nothing but white space does nothing.
        Otherwise the request settles (the SDK's reply is a parameter): on
        success the result is shown, a new item (with `newId` and `now`
        standing for the random UUID and the clock) goes to the front of the
        saved history and the tag input is cleared; on failure the message
        is shown and the history is left alone. Either way the spinner stops.
        Every failure carries a message, so the fallback text is never used.
        `request` is the text sent to the model: none for a blank prompt or
        when no client can be had, else the prompt, tone and role with no
        extra instructions. */
    method Optimize(service: Gemini.Service, env: Gemini.Env, reply: Gemini.Reply, newId: string, now: int)
      returns (request: Option<string>, outcome: Option<Result<OptimizationResult, string>>)
      requires service.Valid()
      modifies this`isOptimizing, this`result, this`history, this`error, this`activeTag, this`storage, service
      ensures service.Valid()
      ensures Trim(old(inputPrompt)) == [] <==> outcome.None?
      ensures Trim(old(inputPrompt)) == [] ==> request == None
      ensures Trim(old(inputPrompt)) != [] ==>
        request == if Gemini.AcquireClient(old(service.aiInstance), env).Success?
          then Some(Gemini.RequestText(old(inputPrompt), old(tone), old(role), None)) else None
      ensures outcome.None? ==> unchanged(this) && unchanged(service)
      ensures outcome.Some? ==> outcome.value == Gemini.Outcome(old(service.aiInstance), env, reply)
      ensures outcome.Some? ==>
        var outcome := outcome.value;
        && !isOptimizing
        && (outcome.Success? ==>
              && result == Some(outcome.value) && error == None && activeTag == ""
              && history == Prepend(PromptHistoryItem(newId, old(inputPrompt), outcome.value, now, NormalizeTag(old(activeTag))), old(history))
              && storage == old(storage)[HistoryKey := Serialized(history)])
        && (outcome.Failure? ==>
              && error == Some(outcome.error)
              && result == old(result) && activeTag == old(activeTag)
              && history == old(history) && storage == old(storage))
    {
      if Trim(inputPrompt) == [] {
        return None, None;
      }
      isOptimizing := true;
      error := None;
      var settled;
      request, settled := AwaitOptimizePrompt(service, env, inputPrompt, tone, role, reply);
      Settle(settled, newId, now);
      outcome := Some(settled);
    }

    /** The part of handleOptimize after the request settles: the `try` body
        after the await, the `catch` and the `finally`. */
    method Settle(outcome: Result<OptimizationResult, string>, newId: string, now: int)
      modifies this`result, this`history, this`storage, this`activeTag, this`error, this`isOptimizing
      ensures !isOptimizing
      ensures outcome.Success? ==>
        && result == Some(outcome.value) && error == old(error) && activeTag == ""
        && history == Prepend(PromptHistoryItem(newId, inputPrompt, outcome.value, now, NormalizeTag(old(activeTag))), old(history))
        && storage == old(storage)[HistoryKey := Serialized(history)]
      ensures outcome.Failure? ==>
        && error == Some(if outcome.error != [] then outcome.error else UnexpectedError)
        && result == old(result) && activeTag == old(activeTag)
        && history == old(history) && storage == old(storage)
    {
      if outcome.Success? {
        result := Some(outcome.value);
        var item := PromptHistoryItem(newId, inputPrompt, outcome.value, now, NormalizeTag(activeTag));
        SaveHistory(Prepend(item, history));
        activeTag := "";
      } else {
        error := Some(if outcome.error != [] then outcome.error else UnexpectedError);
      }
      isOptimizing := false;
    }

    /** The success branch as the handler is written: the new list is built
        from `snapshot`, the history of the render that started the request,
        not from the history at the time the request settles. */
    method SaveOnSnapshot(value: OptimizationResult, snapshot: seq<PromptHistoryItem>, newId: string, now: int)
      modifies this`result, this`history, this`storage, this`activeTag, this`isOptimizing
      ensures result == Some(value) && activeTag == "" && !isOptimizing
      ensures history == Prepend(PromptHistoryItem(newId, inputPrompt, value, now, NormalizeTag(old(activeTag))), snapshot)
      ensures storage == old(storage)[HistoryKey := Serialized(history)]
    {
      result := Some(value);
      var item := PromptHistoryItem(newId, inputPrompt, value, now, NormalizeTag(activeTag));
      SaveHistory(Prepend(item, snapshot));
      activeTag := "";
      isOptimizing := false;
    }

    /** "Clear All" pressed while a request is in flight, with the handler as
        written: the request then succeeds, and the cleared entries come back
        behind the new one. */
    method ClearDuringRequestAsWritten(value: OptimizationResult, newId: string, now: int)
      modifies this`result, this`history, this`storage, this`activeTag, this`isOptimizing
      ensures history == Prepend(PromptHistoryItem(newId, inputPrompt, value, now, NormalizeTag(old(activeTag))), old(history))
      ensures old(history) != [] ==> |history| > 1 && history[1] == old(history)[0]
      ensures Persisted()
    {
      var snapshot := history;
      ClearHistory();
      SaveOnSnapshot(value, snapshot, newId, now);
    }

    /** The same interleaving with the new list built from the history
        current when the request settles (as an updater passed to the state
        setter would do): the clear sticks and only the new item is left. */
    method ClearDuringRequestCorrected(value: OptimizationResult, newId: string, now: int)
      modifies this`result, this`history, this`storage, this`activeTag, this`isOptimizing, this`error
      ensures history == [PromptHistoryItem(newId, inputPrompt, value, now, NormalizeTag(old(activeTag)))]
      ensures Persisted()
    {
      ClearHistory();
      Settle(Success(value), newId, now);
    }

    /** handleUpdateTag. */
    method UpdateTag(id: string, newTag: string)
      modifies this`history, this`storage
      ensures history == Retag(old(history), id, newTag)
      ensures storage == old(storage)[HistoryKey := Serialized(history)]
      ensures Persisted()
    {
      SaveHistory(Retag(history, id, newTag));
    }

    /** The sidebar's saveTag followed by the handleUpdateTag it calls back. */
    method SaveEditedTag(sidebar: HistorySidebar.SidebarState, id: string)
      modifies this`history, this`storage, sidebar
      ensures history == Retag(old(history), id, old(sidebar.tagValue))
      ensures storage == old(storage)[HistoryKey := Serialized(history)]
      ensures Persisted()
      ensures sidebar.editingTagId == None && sidebar.tagValue == "" && sidebar.filter == old(sidebar.filter)
    {
      var updateId, updateTag := sidebar.SaveTag(id);
      UpdateTag(updateId, updateTag);
    }

    /** handleSelectHistory: back on the optimizer view with the item's
        prompt and result; history and storage stay as they are. */
    method SelectHistory(item: PromptHistoryItem)
      modifies this`currentView, this`inputPrompt, this`result
      ensures currentView == "optimizer" && inputPrompt == item.original && result == Some(item.result)
    {
      currentView := "optimizer";
      inputPrompt := item.original;
      result := Some(item.result);
    }

    /** clearHistory: an empty history, saved as such. */
    method ClearHistory()
      modifies this`history, this`storage
      ensures history == [] && storage == old(storage)[HistoryKey := Serialized([])]
      ensures Persisted()
    {
      SaveHistory([]);
    }

    /** The navigation bar's onNavigate. */
    method Navigate(view: string)
      modifies this`currentView
      ensures currentView == view
    {
      currentView := view;
    }

    /** Opening and closing the live voice overlay. */
    method SetLiveMode(show: bool)
      modifies this`showLiveMode
      ensures showLiveMode == show
    {
      showLiveMode := show;
    }
  }
}

=== FILE: gemini.dfy ===
/** The service layer (services/gemini.ts): resolving and validating the API
    key, creating the SDK client once, building the request text and turning
    whatever the call throws into a user-facing message. The SDK call itself
    is outside the model: its reply is a parameter. */
module Gemini {
  import opened Types
  import opened Text

  const MinKeyLength: nat := 20
  const GeminiPlaceholder := "your_gemini_api_key_here"
  const GenericPlaceholder := "your_api_key_here"

  const PlaceholderKeyError := "Please set your GEMINI_API_KEY in .env.local file (for local) or Vercel environment variables (for production)."
  const MissingKeyError := "API key" + " is missing. Please provide a valid API key in .env.local (local) or Vercel settings (production)."
  const InvalidKeyError := "Invalid API key. Please check your GEMINI_API_KEY in .env.local (local) or Vercel settings (production)."
  const PermissionError := "API key does not have permission to access Gemini API. Please enable the Generative Language API in Google Cloud Console."
  const QuotaError := "API quota exceeded. You have reached your rate limit. Please wait a moment and try again, or check your usage at https://ai.dev/usage?tab=rate-limit"
  const DefaultError := "An error occurred while optimizing the prompt. Please try again."
  const EmptyResponseError := "No response from AI"

  /** The configuration the key is read from: the three variables (`None` when
      unset) and whether `import.meta` and `process.env` exist at all. */
  datatype Env = Env(
    apiKey: Option<string>,
    hasImportMeta: bool,
    viteGeminiKey: Option<string>,
    hasProcessEnv: bool,
    geminiKey: Option<string>)

  /** The trimmed value each source contributes, in the order they are tried;
      a source whose guard fails contributes "". */
  function KeySources(env: Env): seq<string>
  {
    [ Trim(OrEmpty(env.apiKey)),
      if env.hasImportMeta then Trim(OrEmpty(env.viteGeminiKey)) else "",
      if env.hasProcessEnv then Trim(OrEmpty(env.geminiKey)) else "" ]
  }

  /** The first non-empty string of `xs`, or "" when there is none. */
  function FirstNonEmpty(xs: seq<string>): (r: string)
    ensures r == [] <==> forall i :: 0 <= i < |xs| ==> xs[i] == []
    ensures r != [] ==> exists i :: 0 <= i < |xs| && xs[i] == r && forall j :: 0 <= j < i ==> xs[j] == []
  {
    if xs == [] then ""
    else if xs[0] != [] then xs[0]
    else
      var r := FirstNonEmpty(xs[1..]);
      assert forall i :: 1 <= i < |xs| ==> xs[i] == xs[1..][i - 1];
      r
  }

  /** The key getApiKey settles on before validating it. */
  function CandidateKey(env: Env): string
  {
    FirstNonEmpty(KeySources(env))
  }

  predicate IsPlaceholder(key: string)
  {
    key == GeminiPlaceholder || key == GenericPlaceholder
  }

  /** What getApiKey returns or throws for a configuration: placeholders are
      rejected first, then keys shorter than the minimum; an accepted key is
      the first non-empty source. */
  function ApiKeyOutcome(env: Env): (r: Result<string, string>)
    ensures r.Success? <==> !IsPlaceholder(CandidateKey(env)) && |CandidateKey(env)| >= MinKeyLength
    ensures r.Success? ==> r.value == CandidateKey(env)
    ensures r.Failure? ==> r.error == if IsPlaceholder(CandidateKey(env)) then PlaceholderKeyError else MissingKeyError
  {
    var key := CandidateKey(env);
    if IsPlaceholder(key) then Failure(PlaceholderKeyError)
    else if key == [] || |key| < MinKeyLength then Failure(MissingKeyError)
    else Success(key)
  }

  /** The candidate is the first source if non-empty, else the second if
      non-empty, else the third. */
  lemma CandidateKeyChain(env: Env)
    ensures var xs := KeySources(env);
      CandidateKey(env) == if xs[0] != [] then xs[0] else if xs[1] != [] then xs[1] else xs[2]
  {
    var xs := KeySources(env);
    if xs[0] == [] {
      assert FirstNonEmpty(xs) == FirstNonEmpty(xs[1..]);
      if xs[1] == [] {
        assert FirstNonEmpty(xs[1..]) == FirstNonEmpty(xs[2..]);
        assert xs[2..][1..] == [];
      }
    }
  }

  /** Every source is trimmed before it is tried, so the candidate is too. */
  lemma CandidateKeyTrimmed(env: Env)
    ensures Trim(CandidateKey(env)) == CandidateKey(env)
  {
    CandidateKeyChain(env);
    TrimIdempotent(OrEmpty(env.apiKey));
    TrimIdempotent(OrEmpty(env.viteGeminiKey));
    TrimIdempotent(OrEmpty(env.geminiKey));
  }

  /** getApiKey: the fallback chain of reassignments, then the two checks. */
  method GetApiKey(env: Env) returns (r: Result<string, string>)
    ensures r == ApiKeyOutcome(env)
  {
    var apiKey := Trim(OrEmpty(env.apiKey));
    if apiKey == [] && env.hasImportMeta {
      apiKey := Trim(OrEmpty(env.viteGeminiKey));
    }
    if apiKey == [] && env.hasProcessEnv {
      apiKey := Trim(OrEmpty(env.geminiKey));
    }
    CandidateKeyChain(env);
    if apiKey == GeminiPlaceholder || apiKey == GenericPlaceholder {
      return Failure(PlaceholderKeyError);
    }
    if apiKey == [] || |apiKey| < MinKeyLength {
      return Failure(MissingKeyError);
    }
    return Success(apiKey);
  }

  /** The SDK client; only the key it was built with matters here. */
  datatype Client = Client(apiKey: string)

  /** What getAI yields given the current instance: the existing client when
      there is one, otherwise a new client over a freshly validated key. */
  function AcquireClient(instance: Option<Client>, env: Env): (r: Result<Client, string>)
    ensures instance.Some? ==> r == Success(instance.value)
    ensures instance.None? ==> (r.Success? <==> ApiKeyOutcome(env).Success?)
    ensures instance.None? && r.Success? ==> r.value.apiKey == CandidateKey(env) && |r.value.apiKey| >= MinKeyLength
    ensures instance.None? && r.Failure? ==> r.error == ApiKeyOutcome(env).error
  {
    if instance.Some? then Success(instance.value)
    else match ApiKeyOutcome(env)
      case Success(key) => Success(Client(key))
      case Failure(e) => Failure(e)
  }

  /** "Additional Context" of the request: the extra instructions, or "None"
      when they are absent or empty. */
  function AdditionalContext(extra: Option<string>): (c: string)
    ensures c != []
    ensures extra.Some? && extra.value != [] ==> c == extra.value
    ensures extra.None? || extra.value == [] ==> c == "None"
  {
    if extra.Some? && extra.value != [] then extra.value else "None"
  }

  const RequestHeader := "Optimize the following prompt.\n      User's Original Prompt: \""
  const PromptClose := "\""
  const ToneHeading := "\n      Desired Tone: "
  const RoleHeading := "\n      Persona/Role: "
  const ContextHeading := "\n      Additional Context: "

  /** The seven pieces of the request in order; the headings stay symbolic
      here so that facts about the layout do not depend on their text. */
  function Layout(header: string, prompt: string, close: string, toneHeading: string, tone: string,
                  roleHeading: string, role: string, contextHeading: string, context: string): string
  {
    header + prompt + close + toneHeading + tone + roleHeading + role + contextHeading + context
  }

  /** The user message sent with every optimization request. */
  function RequestText(prompt: string, tone: Tone, role: Role, extra: Option<string>): string
  {
    Layout(RequestHeader, prompt, PromptClose, ToneHeading, ToneValue(tone),
           RoleHeading, RoleValue(role), ContextHeading, AdditionalContext(extra))
  }

  /** Where each piece of the layout sits. */
  lemma LayoutPieces(header: string, prompt: string, close: string, toneHeading: string, tone: string,
                     roleHeading: string, role: string, contextHeading: string, context: string)
    ensures var r := Layout(header, prompt, close, toneHeading, tone, roleHeading, role, contextHeading, context);
      && StartsWith(r, header + prompt + close)
      && Contains(r, tone) && Contains(r, role)
      && |context| <= |r| && r[|r| - |context|..] == context
      && r[|header|..|header| + |prompt|] == prompt
      && |r| == |header| + |prompt| + |close| + |toneHeading| + |tone| + |roleHeading| + |role| + |contextHeading| + |context|
  {
    var r := Layout(header, prompt, close, toneHeading, tone, roleHeading, role, contextHeading, context);
    var front := header + prompt + close;
    var a := front + toneHeading;
    var b := roleHeading + role + contextHeading + context;
    assert r == front + (toneHeading + tone + b);
    assert r == a + tone + b;
    ContainsMiddle(a, tone, b);
    var c := a + tone + roleHeading;
    var d := contextHeading + context;
    assert r == c + role + d;
    ContainsMiddle(c, role, d);
    assert r == (c + role + contextHeading) + context;
    assert r == header + (prompt + (close + toneHeading + tone + b));
  }

  /** The request starts with the fixed header followed by the prompt,
      verbatim and closed by a quote. */
  lemma RequestTextStartsWithPrompt(prompt: string, tone: Tone, role: Role, extra: Option<string>)
    ensures StartsWith(RequestText(prompt, tone, role, extra), RequestHeader + prompt + PromptClose)
  {
    LayoutPieces(RequestHeader, prompt, PromptClose, ToneHeading, ToneValue(tone),
                 RoleHeading, RoleValue(role), ContextHeading, AdditionalContext(extra));
  }

  /** The request names the tone and the role by their string values. */
  lemma RequestTextNamesToneAndRole(prompt: string, tone: Tone, role: Role, extra: Option<string>)
    ensures Contains(RequestText(prompt, tone, role, extra), ToneValue(tone))
    ensures Contains(RequestText(prompt, tone, role, extra), RoleValue(role))
  {
    LayoutPieces(RequestHeader, prompt, PromptClose, ToneHeading, ToneValue(tone),
                 RoleHeading, RoleValue(role), ContextHeading, AdditionalContext(extra));
  }

  /** The request ends with the additional context. */
  lemma RequestTextEndsWithContext(prompt: string, tone: Tone, role: Role, extra: Option<string>)
    ensures var r := RequestText(prompt, tone, role, extra); var c := AdditionalContext(extra);
      |c| <= |r| && r[|r| - |c|..] == c
  {
    LayoutPieces(RequestHeader, prompt, PromptClose, ToneHeading, ToneValue(tone),
                 RoleHeading, RoleValue(role), ContextHeading, AdditionalContext(extra));
  }

  /** Two requests that differ only in the prompt are different texts: the
      prompt can be read back from the request. */
  lemma RequestTextDeterminesPrompt(p1: string, p2: string, tone: Tone, role: Role, extra: Option<string>)
    requires RequestText(p1, tone, role, extra) == RequestText(p2, tone, role, extra)
    ensures p1 == p2
  {
    var t, o, c := ToneValue(tone), RoleValue(role), AdditionalContext(extra);
    LayoutPieces(RequestHeader, p1, PromptClose, ToneHeading, t, RoleHeading, o, ContextHeading, c);
    LayoutPieces(RequestHeader, p2, PromptClose, ToneHeading, t, RoleHeading, o, ContextHeading, c);
  }

  /** What the call throws: its `message` (possibly missing) and its `code`. */
  datatype SdkError = SdkError(message: Option<string>, code: Option<int>)

  predicate MentionsApiKey(m: string) { Contains(m, "API key") }
  predicate IsUnauthorized(m: string) { Contains(m, "401") || Contains(m, "unauthorized") }
  predicate IsForbidden(m: string) { Contains(m, "403") || Contains(m, "forbidden") }
  predicate IsRateLimited(m: string, code: Option<int>)
  {
    Contains(m, "429") || Contains(m, "quota") || Contains(m, "RESOURCE_EXHAUSTED") || code == Some(429)
  }

  /** None of the four rules of the catch block applies. */
  predicate NoRuleMatches(m: string, code: Option<int>)
  {
    !MentionsApiKey(m) && !IsUnauthorized(m) && !IsForbidden(m) && !IsRateLimited(m, code)
  }

  /** The catch block of optimizePrompt: the first rule that matches decides
      the message of the error thrown on. A message naming the "API key" is
      re-thrown as it is; then 401/unauthorized, 403/forbidden and
      429/quota/RESOURCE_EXHAUSTED (or code 429) each replace it with their
      own text; a message no rule matches is re-thrown, and a missing or
      empty one becomes the default text. */
  function ClassifyError(e: SdkError): (msg: string)
    ensures msg != []
    ensures MentionsApiKey(OrEmpty(e.message)) ==> msg == OrEmpty(e.message)
    ensures !MentionsApiKey(OrEmpty(e.message)) && IsUnauthorized(OrEmpty(e.message)) ==> msg == InvalidKeyError
    ensures !MentionsApiKey(OrEmpty(e.message)) && !IsUnauthorized(OrEmpty(e.message)) && IsForbidden(OrEmpty(e.message)) ==>
      msg == PermissionError
    ensures (!MentionsApiKey(OrEmpty(e.message)) && !IsUnauthorized(OrEmpty(e.message)) && !IsForbidden(OrEmpty(e.message))
             && IsRateLimited(OrEmpty(e.message), e.code)) ==> msg == QuotaError
    ensures NoRuleMatches(OrEmpty(e.message), e.code) ==>
      msg == if OrEmpty(e.message) != [] then OrEmpty(e.message) else DefaultError
  {
    var m := OrEmpty(e.message);
    if MentionsApiKey(m) then m
    else if IsUnauthorized(m) then InvalidKeyError
    else if IsForbidden(m) then PermissionError
    else if IsRateLimited(m, e.code) then QuotaError
    else if m != [] then m
    else DefaultError
  }

  /** The key-missing error names the "API key", so the classifier passes it
      on unchanged whatever else it says. */
  lemma MissingKeyErrorPassesThrough(code: Option<int>)
    ensures ClassifyError(SdkError(Some(MissingKeyError), code)) == MissingKeyError
  {
    assert StartsWith(MissingKeyError, "API key");
  }

  /** A non-empty message that no rule matches is re-thrown with its own
      text, whatever its code. */
  lemma UnmatchedMessagePassesThrough(m: string, code: Option<int>)
    requires m != [] && NoRuleMatches(m, code)
    ensures ClassifyError(SdkError(Some(m), code)) == m
  {
  }

  /** A message without the characters 'y', '4', 'u', 'b', 'q' and 'R', and
      without code 429, cannot contain any of the words the rules look for. */
  lemma NoRuleMatchesWithout(m: string, code: Option<int>)
    requires code != Some(429)
    requires 'y' !in m && '4' !in m && 'u' !in m && 'b' !in m && 'q' !in m && 'R' !in m
    ensures NoRuleMatches(m, code)
  {
    ContainsOnlyCharsOf(m, "API key", 'y');
    ContainsOnlyCharsOf(m, "401", '4');
    ContainsOnlyCharsOf(m, "unauthorized", 'u');
    ContainsOnlyCharsOf(m, "403", '4');
    ContainsOnlyCharsOf(m, "forbidden", 'b');
    ContainsOnlyCharsOf(m, "429", '4');
    ContainsOnlyCharsOf(m, "quota", 'q');
    ContainsOnlyCharsOf(m, "RESOURCE_EXHAUSTED", 'R');
  }

  /** An ordinary failure text such as "Network error" matches no rule. */
  lemma NetworkErrorMatchesNoRule(code: Option<int>)
    requires code != Some(429)
    ensures NoRuleMatches("Network error", code)
  {
    NetworkErrorLacks('y');
    NetworkErrorLacks('4');
    NetworkErrorLacks('u');
    NetworkErrorLacks('b');
    NetworkErrorLacks('q');
    NetworkErrorLacks('R');
    NoRuleMatchesWithout("Network error", code);
  }

  lemma NetworkErrorLacks(c: char)
    requires c == 'y' || c == '4' || c == 'u' || c == 'b' || c == 'q' || c == 'R'
    ensures c !in "Network error"
  {
  }

  /** A message that opens with "API key" is kept whatever follows it, even
      "401", "forbidden" or "quota", and whatever its code: the first rule
      wins over the later ones. */
  lemma ApiKeyRuleComesFirst(rest: string, code: Option<int>)
    ensures ClassifyError(SdkError(Some("API key" + rest), code)) == "API key" + rest
  {
    assert StartsWith("API key" + rest, "API key");
  }

  /** Code 429 turns a message no word rule matches into the quota text. */
  lemma RateLimitCodeOverridesMessage()
    ensures ClassifyError(SdkError(Some("Network error"), Some(429))) == QuotaError
  {
    NetworkErrorMatchesNoRule(None);
  }

  /** The same message without that code is re-thrown as it is. */
  lemma NetworkErrorPassesThrough()
    ensures ClassifyError(SdkError(Some("Network error"), None)) == "Network error"
  {
    NetworkErrorMatchesNoRule(None);
  }

  /** An error without a message gets the default text. */
  lemma MissingMessageGetsDefault()
    ensures ClassifyError(SdkError(None, None)) == DefaultError
  {
    assert !Contains([], "API key") && !Contains([], "401") && !Contains([], "unauthorized");
    assert !Contains([], "403") && !Contains([], "forbidden");
    assert !Contains([], "429") && !Contains([], "quota") && !Contains([], "RESOURCE_EXHAUSTED");
  }

  /** The empty-answer message holds none of the characters the rules need. */
  lemma EmptyResponseErrorLacks(c: char)
    requires c == 'y' || c == '4' || c == 'u' || c == 'b' || c == 'q' || c == 'R'
    ensures c !in EmptyResponseError
  {
  }

  /** In particular the empty-response error reaches the caller unchanged. */
  lemma EmptyResponseErrorPassesThrough()
    ensures ClassifyError(SdkError(Some(EmptyResponseError), None)) == EmptyResponseError
  {
    EmptyResponseErrorLacks('y');
    EmptyResponseErrorLacks('4');
    EmptyResponseErrorLacks('u');
    EmptyResponseErrorLacks('b');
    EmptyResponseErrorLacks('q');
    EmptyResponseErrorLacks('R');
    NoRuleMatchesWithout(EmptyResponseError, None);
    UnmatchedMessagePassesThrough(EmptyResponseError, None);
  }

  /** How the SDK call settled: it answered with `response.text` (maybe
      missing) together with what `JSON.parse` makes of that text (a parse
      error carries the SyntaxError message), or it threw. */
  datatype Reply =
    | Answered(text: Option<string>, parsed: Result<OptimizationResult, string>)
    | Rejected(error: SdkError)

  /** The settled value of optimizePrompt for a given client instance,
      configuration and SDK reply. Every error thrown inside the `try` goes
      through the classifier; for the empty-answer error its verdict, the
      message unchanged, is written out (see `EmptyAnswerFails`). */
  function Outcome(instance: Option<Client>, env: Env, reply: Reply): Result<OptimizationResult, string>
  {
    match AcquireClient(instance, env)
    case Failure(keyError) => Failure(ClassifyError(SdkError(Some(keyError), None)))
    case Success(_) =>
      match reply
      case Rejected(e) => Failure(ClassifyError(e))
      case Answered(text, parsed) =>
        if OrEmpty(text) == [] then Failure(EmptyResponseError)
        else match parsed
          case Success(v) => Success(v)
          case Failure(syntaxError) => Failure(ClassifyError(SdkError(Some(syntaxError), None)))
  }

  /** Only a non-empty answer that parses yields a result; every failure
      carries a non-empty message. */
  lemma OutcomeSuccessNeedsParsedAnswer(instance: Option<Client>, env: Env, reply: Reply)
    ensures var r := Outcome(instance, env, reply);
      && (r.Success? <==> AcquireClient(instance, env).Success? && reply.Answered?
                           && OrEmpty(reply.text) != [] && reply.parsed.Success?)
      && (r.Success? ==> r.value == reply.parsed.value)
      && (r.Failure? ==> r.error != [])
  {
  }

  /** An empty answer fails with "No response from AI" rather than producing
      a result: the error thrown for it comes out of the catch block as it
      went in. */
  lemma EmptyAnswerFails(instance: Option<Client>, env: Env, text: Option<string>, parsed: Result<OptimizationResult, string>)
    requires AcquireClient(instance, env).Success?
    requires OrEmpty(text) == []
    ensures Outcome(instance, env, Answered(text, parsed)) == Failure(EmptyResponseError)
    ensures Outcome(instance, env, Answered(text, parsed)) == Failure(ClassifyError(SdkError(Some(EmptyResponseError), None)))
  {
    EmptyResponseErrorPassesThrough();
  }

  /** With no client yet and a key that is empty or too short, the call fails
      with the key-missing message, untouched by the classifier. */
  lemma ShortKeyFails(env: Env, reply: Reply)
    requires !IsPlaceholder(CandidateKey(env)) && |CandidateKey(env)| < MinKeyLength
    ensures Outcome(None, env, reply) == Failure(MissingKeyError)
  {
    MissingKeyErrorPassesThrough(None);
  }

  /** The module-level `aiInstance` of services/gemini.ts and the operations
      that use it. */
  class Service {
    var aiInstance: Option<Client>

    ghost predicate Valid()
      reads this
    {
      aiInstance.Some? ==> |aiInstance.value.apiKey| >= MinKeyLength
    }

    constructor ()
      ensures Valid() && aiInstance == None
    {
      aiInstance := None;
    }

    /** getAI: validates the key only while no instance exists; a failed
        validation leaves the instance unset, a success stores the client,
        which every later call returns unchanged. */
    method GetAI(env: Env) returns (r: Result<Client, string>)
      requires Valid()
      modifies this
      ensures Valid()
      ensures r == AcquireClient(old(aiInstance), env)
      ensures aiInstance == if r.Success? then Some(r.value) else old(aiInstance)
    {
      if aiInstance.None? {
        var key := GetApiKey(env);
        if key.Failure? {
          return Failure(key.error);
        }
        aiInstance := Some(Client(key.value));
      }
      return Success(aiInstance.value);
    }

    /** optimizePrompt: obtains the client, sends the request (returned as
        `request` when it is sent), checks the answer and classifies any
        error thrown on the way. */
    method OptimizePrompt(env: Env, prompt: string, tone: Tone, role: Role, extra: Option<string>, reply: Reply)
      returns (request: Option<string>, r: Result<OptimizationResult, string>)
      requires Valid()
      modifies this
      ensures Valid()
      ensures r == Outcome(old(aiInstance), env, reply)
      ensures r.Failure? ==> r.error != []
      ensures request == if AcquireClient(old(aiInstance), env).Success? then Some(RequestText(prompt, tone, role, extra)) else None
      ensures aiInstance == if AcquireClient(old(aiInstance), env).Success? then Some(AcquireClient(old(aiInstance), env).value) else old(aiInstance)
    {
      var ai := GetAI(env);
      if ai.Failure? {
        return None, Failure(ClassifyError(SdkError(Some(ai.error), None)));
      }
      request := Some(RequestText(prompt, tone, role, extra));
      match reply {
        case Rejected(e) =>
          r := Failure(ClassifyError(e));
        case Answered(text, parsed) =>
          if OrEmpty(text) == [] {
            EmptyResponseErrorPassesThrough();
            r := Failure(ClassifyError(SdkError(Some(EmptyResponseError), None)));
          } else if parsed.Failure? {
            r := Failure(ClassifyError(SdkError(Some(parsed.error), None)));
          } else {
            r := Success(parsed.value);
          }
      }
    }
  }
}

=== FILE: history_sidebar.dfy ===
/** The history panel (components/HistorySidebar.tsx): the case-insensitive
    filter over the saved history and the state of the inline tag editor. */
module HistorySidebar {
  import opened Types
  import opened Text

  /** An item matches a lower-cased filter when its original prompt contains
      it, or when it has a tag and the tag contains it; an item without a tag
      is matched on its original prompt only. */
  predicate Matches(item: PromptHistoryItem, lowerFilter: string)
  {
    || Contains(Lower(item.original), lowerFilter)
    || (item.tag.Some? && Contains(Lower(item.tag.value), lowerFilter))
  }

  /** `xs` is `ys` with some elements left out and the rest in their order. */
  ghost predicate IsSubsequence<T>(xs: seq<T>, ys: seq<T>)
    decreases |ys|
  {
    || xs == []
    || (ys != [] && ((xs[0] == ys[0] && IsSubsequence(xs[1..], ys[1..])) || IsSubsequence(xs, ys[1..])))
  }

  lemma {:induction false} SubsequenceReflexive<T>(xs: seq<T>)
    ensures IsSubsequence(xs, xs)
    decreases |xs|
  {
    if xs != [] {
      SubsequenceReflexive(xs[1..]);
    }
  }

  /** `history.filter(...)`: the matching items, in their order. */
  function KeepMatching(history: seq<PromptHistoryItem>, lowerFilter: string): (r: seq<PromptHistoryItem>)
    ensures |r| <= |history|
    ensures IsSubsequence(r, history)
    ensures forall item :: item in r <==> item in history && Matches(item, lowerFilter)
    ensures forall item :: multiset(r)[item] == if Matches(item, lowerFilter) then multiset(history)[item] else 0
  {
    if history == [] then []
    else
      var rest := KeepMatching(history[1..], lowerFilter);
      assert history == [history[0]] + history[1..];
      assert multiset(history) == multiset{history[0]} + multiset(history[1..]);
      if Matches(history[0], lowerFilter) then
        var r := [history[0]] + rest;
        assert r[1..] == rest;
        assert multiset(r) == multiset{history[0]} + multiset(rest);
        r
      else rest
  }

  /** `filteredHistory`: an empty filter shows the whole history; otherwise
      the shown items are exactly the history items that match the
      lower-cased filter, in history order. */
  function FilterHistory(history: seq<PromptHistoryItem>, filter: string): (r: seq<PromptHistoryItem>)
    ensures filter == [] ==> r == history
    ensures IsSubsequence(r, history)
    ensures forall item :: item in r <==> item in history && (filter == [] || Matches(item, Lower(filter)))
    ensures filter != [] ==>
      forall item :: multiset(r)[item] == if Matches(item, Lower(filter)) then multiset(history)[item] else 0
  {
    if filter == [] then
      SubsequenceReflexive(history);
      history
    else KeepMatching(history, Lower(filter))
  }

  /** A list whose every item matches passes through the filter whole. */
  lemma {:induction false} KeepMatchingAll(xs: seq<PromptHistoryItem>, lowerFilter: string)
    requires forall item :: item in xs ==> Matches(item, lowerFilter)
    ensures KeepMatching(xs, lowerFilter) == xs
    decreases |xs|
  {
    if xs != [] {
      assert xs[0] in xs;
      assert forall item :: item in xs[1..] ==> item in xs;
      KeepMatchingAll(xs[1..], lowerFilter);
    }
  }

  /** Filtering the filtered list again with the same filter changes nothing. */
  lemma FilterIdempotent(history: seq<PromptHistoryItem>, filter: string)
    ensures FilterHistory(FilterHistory(history, filter), filter) == FilterHistory(history, filter)
  {
    if filter != [] {
      KeepMatchingAll(FilterHistory(history, filter), Lower(filter));
    }
  }

  /** Only the lower-cased form of the filter matters. */
  lemma FilterCaseInsensitive(history: seq<PromptHistoryItem>, filter: string)
    ensures FilterHistory(history, filter) == FilterHistory(history, Lower(filter))
  {
    LowerIdempotent(filter);
  }

  /** The panel's own state: the filter text and the inline tag editor. */
  class SidebarState {
    var filter: string
    var editingTagId: Option<string>
    var tagValue: string

    constructor ()
      ensures filter == "" && editingTagId == None && tagValue == ""
    {
      filter := "";
      editingTagId := None;
      tagValue := "";
    }

    /** The filter input's onChange. */
    method SetFilter(text: string)
      modifies this`filter
      ensures filter == text
    {
      filter := text;
    }

    /** handleEditTag: open the editor on the item, seeded with its tag. */
    method EditTag(item: PromptHistoryItem)
      modifies this`editingTagId, this`tagValue
      ensures editingTagId == Some(item.id)
      ensures tagValue == if item.tag.Some? then item.tag.value else ""
    {
      editingTagId := Some(item.id);
      tagValue := if item.tag.Some? then item.tag.value else "";
    }

    /** The tag input's onChange. */
    method ChangeTagValue(text: string)
      modifies this`tagValue
      ensures tagValue == text
    {
      tagValue := text;
    }

    /** saveTag: hand `(id, tagValue)` to the update callback (returned here),
        then close the editor and clear its text. */
    method SaveTag(id: string) returns (updateId: string, updateTag: string)
      modifies this`editingTagId, this`tagValue
      ensures updateId == id && updateTag == old(tagValue)
      ensures editingTagId == None && tagValue == ""
    {
      updateId, updateTag := id, tagValue;
      editingTagId := None;
      tagValue := "";
    }
  }
}

=== FILE: live_assistant.dfy ===
/** The live voice overlay (components/LiveAssistant.tsx): the transcript
    merge, the byte and sample conversions around the audio stream, and the
    playback cursor with its set of playing sources. Time is counted in
    samples of the 24 kHz output context, so a chunk of `n` frames lasts `n`. */
module LiveAssistant {
  import opened Types

  newtype byte = x: int | 0 <= x < 256

  newtype int16 = x: int | -32768 <= x < 32768

  // ---------------------------------------------------------------------
  // Transcript merge (components/LiveAssistant.tsx:93-112)

  datatype Speaker = User | Model

  datatype Turn = Turn(speaker: Speaker, text: string)

  /** Every turn's text, in order. */
  function AllText(turns: seq<Turn>): string
    decreases |turns|
  {
    if turns == [] then [] else AllText(turns[..|turns| - 1]) + turns[|turns| - 1].text
  }

  /** No two neighbouring turns have the same speaker. */
  predicate Alternating(turns: seq<Turn>)
  {
    forall k :: 0 < k < |turns| ==> turns[k - 1].speaker != turns[k].speaker
  }

  /** The functional update passed to `setTranscriptions`: a fragment from the
      speaker of the last turn extends that turn; any other fragment opens a
      new turn. */
  function AppendTranscript(prev: seq<Turn>, speaker: Speaker, text: string): (r: seq<Turn>)
    ensures prev != [] && prev[|prev| - 1].speaker == speaker ==>
      |r| == |prev| && r[|r| - 1] == Turn(speaker, prev[|prev| - 1].text + text)
    ensures !(prev != [] && prev[|prev| - 1].speaker == speaker) ==> r == prev + [Turn(speaker, text)]
    ensures forall k :: 0 <= k < |prev| - 1 ==> r[k] == prev[k]
    ensures r != [] && r[|r| - 1].speaker == speaker
  {
    if prev != [] && prev[|prev| - 1].speaker == speaker then
      var last := prev[|prev| - 1];
      prev[..|prev| - 1] + [last.(text := last.text + text)]
    else
      prev + [Turn(speaker, text)]
  }

  /** The transcript text grows by exactly the fragment. */
  lemma AppendTranscriptText(prev: seq<Turn>, speaker: Speaker, text: string)
    ensures AllText(AppendTranscript(prev, speaker, text)) == AllText(prev) + text
  {
    var r := AppendTranscript(prev, speaker, text);
    if prev != [] && prev[|prev| - 1].speaker == speaker {
      assert r[..|r| - 1] == prev[..|prev| - 1];
    } else {
      assert r[..|r| - 1] == prev;
    }
  }

  /** Merging keeps neighbouring turns on different speakers. */
  lemma AppendTranscriptAlternating(prev: seq<Turn>, speaker: Speaker, text: string)
    requires Alternating(prev)
    ensures Alternating(AppendTranscript(prev, speaker, text))
  {
  }

  /** One message's transcriptions: the model's output first, then the
      user's input. */
  function ApplyTranscriptions(prev: seq<Turn>, output: Option<string>, input: Option<string>): seq<Turn>
  {
    var afterOutput := if output.Some? then AppendTranscript(prev, Model, output.value) else prev;
    if input.Some? then AppendTranscript(afterOutput, User, input.value) else afterOutput
  }

  /** The transcript grows by the output fragment followed by the input
      fragment, alternation is kept, and a message that carries input ends on
      a user turn. */
  lemma ApplyTranscriptionsSpec(prev: seq<Turn>, output: Option<string>, input: Option<string>)
    requires Alternating(prev)
    ensures var r := ApplyTranscriptions(prev, output, input);
      && AllText(r) == AllText(prev) + OrEmpty(output) + OrEmpty(input)
      && Alternating(r)
      && (input.Some? ==> r[|r| - 1].speaker == User)
      && (input.None? && output.Some? ==> r[|r| - 1].speaker == Model)
  {
    var afterOutput := if output.Some? then AppendTranscript(prev, Model, output.value) else prev;
    if output.Some? {
      AppendTranscriptText(prev, Model, output.value);
      AppendTranscriptAlternating(prev, Model, output.value);
    }
    if input.Some? {
      AppendTranscriptText(afterOutput, User, input.value);
      AppendTranscriptAlternating(afterOutput, User, input.value);
    }
  }

  // ---------------------------------------------------------------------
  // Binary strings and bytes (components/LiveAssistant.tsx:21-28, 43-49)

  /** Every character is a code unit below 256, as `atob` produces and
      `btoa` accepts. */
  predicate IsBinary(s: string)
  {
    forall k :: 0 <= k < |s| ==> s[k] as int < 256
  }

  type BinaryString = s: string | IsBinary(s)

  /** A base64 text, kept as the binary string it encodes: the encoding of
      section 4 of RFC 4648 is a built-in of the browser, not part of this
      model. */
  datatype Base64 = Base64Of(binary: BinaryString)

  function Btoa(binary: BinaryString): (t: Base64)
    ensures t.binary == binary
  {
    Base64Of(binary)
  }

  function Atob(text: Base64): BinaryString
  {
    text.binary
  }

  /** The bytes a binary string stands for: byte `k` is the code of character `k`. */
  function BytesOf(binary: BinaryString): (b: seq<byte>)
    ensures |b| == |binary|
    ensures forall k :: 0 <= k < |b| ==> b[k] as int == binary[k] as int
  {
    seq(|binary|, k requires 0 <= k < |binary| => binary[k] as int as byte)
  }

  /** The binary string of some bytes: character `k` has the code of byte `k`. */
  function BinaryOf(bytes: seq<byte>): (s: BinaryString)
    ensures |s| == |bytes|
    ensures forall k :: 0 <= k < |s| ==> s[k] as int == bytes[k] as int
  {
    seq(|bytes|, k requires 0 <= k < |bytes| => bytes[k] as int as char)
  }

  lemma BytesOfBinaryOf(bytes: seq<byte>)
    ensures BytesOf(BinaryOf(bytes)) == bytes
  {
  }

  lemma BinaryOfBytesOf(binary: BinaryString)
    ensures BinaryOf(BytesOf(binary)) == binary
  {
    var s := BinaryOf(BytesOf(binary));
    forall k | 0 <= k < |s|
      ensures s[k] == binary[k]
    {
      assert s[k] as int == binary[k] as int;
    }
  }

  /** decode: `atob`, then one byte per character. */
  method Decode(text: Base64) returns (bytes: array<byte>)
    ensures fresh(bytes)
    ensures bytes[..] == BytesOf(Atob(text))
  {
    var binaryString := Atob(text);
    bytes := new byte[|binaryString|];
    for i := 0 to |binaryString|
      invariant forall k :: 0 <= k < i ==> bytes[k] as int == binaryString[k] as int
    {
      bytes[i] := binaryString[i] as int as byte;
    }
    assert bytes[..] == BytesOf(binaryString);
  }

  /** encode: one character per byte, then `btoa`. */
  method Encode(bytes: array<byte>) returns (text: Base64)
    ensures text == Btoa(BinaryOf(bytes[..]))
  {
    var binary: string := "";
    for i := 0 to bytes.Length
      invariant |binary| == i
      invariant forall k :: 0 <= k < i ==> binary[k] as int == bytes[k] as int
    {
      binary := binary + [bytes[i] as int as char];
    }
    assert binary == BinaryOf(bytes[..]);
    return Btoa(binary);
  }

  /** Decoding what was encoded gives back the same bytes. */
  lemma DecodeEncodeRoundTrip(bytes: seq<byte>)
    ensures BytesOf(Atob(Btoa(BinaryOf(bytes)))) == bytes
  {
    BytesOfBinaryOf(bytes);
  }

  // ---------------------------------------------------------------------
  // 16-bit samples (components/LiveAssistant.tsx:31-32, 51-59)

  /** The sample two little-endian bytes hold, in two's complement. */
  function SampleOf(lo: byte, hi: byte): int16
  {
    var u := lo as int + 256 * hi as int;
    (if u >= 32768 then u - 65536 else u) as int16
  }

  /** The low byte of a sample's two's-complement form. */
  function LowByte(s: int16): byte
  {
    (s as int % 256) as byte
  }

  /** The high byte of a sample's two's-complement form. */
  function HighByte(s: int16): byte
  {
    ((s as int + 65536) % 65536 / 256) as byte
  }

  /** Two bytes read as a sample give their little-endian value modulo
      2^16, negative exactly when the high byte has its top bit set. */
  lemma SampleOfMeaning(lo: byte, hi: byte)
    ensures (SampleOf(lo, hi) as int - (lo as int + 256 * hi as int)) % 65536 == 0
    ensures SampleOf(lo, hi) < 0 <==> hi >= 128
  {
  }

  /** The low byte is the sample modulo 256; with the high byte it makes up
      the sample modulo 2^16; the high byte carries the sign bit. */
  lemma ByteSplitMeaning(s: int16)
    ensures (s as int - LowByte(s) as int) % 256 == 0
    ensures (s as int - LowByte(s) as int - 256 * HighByte(s) as int) % 65536 == 0
    ensures s < 0 <==> HighByte(s) >= 128
  {
    var w := if s >= 0 then s as int else s as int + 65536;
    assert (s as int + 65536) % 65536 == w;
    assert s as int % 256 == w % 256;
    assert HighByte(s) as int == w / 256;
    assert w == w % 256 + 256 * (w / 256);
  }

  /** A sample survives being split into its bytes. */
  lemma SampleBytesRoundTrip(s: int16)
    ensures SampleOf(LowByte(s), HighByte(s)) == s
  {
    var w := if s >= 0 then s as int else s as int + 65536;
    assert (s as int + 65536) % 65536 == w;
    assert s as int % 256 == w % 256;
    assert w == w % 256 + 256 * (w / 256);
  }

  /** Two bytes survive being read as a sample. */
  lemma ByteSampleRoundTrip(lo: byte, hi: byte)
    ensures LowByte(SampleOf(lo, hi)) == lo && HighByte(SampleOf(lo, hi)) == hi
  {
    var u := lo as int + 256 * hi as int;
    assert (SampleOf(lo, hi) as int + 65536) % 65536 == u;
    assert u % 256 == lo as int;
    assert u / 256 == hi as int;
  }

  /** The samples an even number of bytes holds, one per byte pair. */
  function PairsToSamples(bytes: seq<byte>): (s: seq<int16>)
    requires |bytes| % 2 == 0
    ensures |s| == |bytes| / 2
    decreases |bytes|
  {
    if bytes == [] then [] else [SampleOf(bytes[0], bytes[1])] + PairsToSamples(bytes[2..])
  }

  /** `new Int16Array(buffer)` over a byte buffer: a RangeError when the byte
      length is odd, otherwise one sample per byte pair. */
  function Int16View(bytes: seq<byte>): (r: Result<seq<int16>, AudioError>)
    ensures r.Success? <==> |bytes| % 2 == 0
    ensures r.Failure? ==> r.error == RangeError
    ensures r.Success? ==> |r.value| == |bytes| / 2
  {
    if |bytes| % 2 != 0 then Failure(RangeError) else Success(PairsToSamples(bytes))
  }

  /** Sample `k` of the view is read from bytes `2k` and `2k + 1`. */
  lemma {:induction false} Int16ViewAt(bytes: seq<byte>, k: int)
    requires |bytes| % 2 == 0 && 0 <= k < |bytes| / 2
    ensures Int16View(bytes).value[k] == SampleOf(bytes[2 * k], bytes[2 * k + 1])
    decreases k
  {
    if k > 0 {
      Int16ViewAt(bytes[2..], k - 1);
    }
  }

  /** `new Uint8Array(int16.buffer)`: each sample as its low byte, then its
      high byte. */
  function Int16Bytes(samples: seq<int16>): (b: seq<byte>)
    ensures |b| == 2 * |samples|
  {
    if samples == [] then [] else [LowByte(samples[0]), HighByte(samples[0])] + Int16Bytes(samples[1..])
  }

  /** Bytes `2k` and `2k + 1` are the low and high byte of sample `k`. */
  lemma {:induction false} Int16BytesAt(samples: seq<int16>, k: int)
    requires 0 <= k < |samples|
    ensures Int16Bytes(samples)[2 * k] == LowByte(samples[k])
    ensures Int16Bytes(samples)[2 * k + 1] == HighByte(samples[k])
    decreases k
  {
    if k > 0 {
      Int16BytesAt(samples[1..], k - 1);
    }
  }

  /** Samples packed into bytes read back as the same samples. */
  lemma {:induction false} ViewOfPackedSamples(samples: seq<int16>)
    ensures Int16View(Int16Bytes(samples)) == Success(samples)
    decreases |samples|
  {
    if samples != [] {
      var b := Int16Bytes(samples);
      var rest := Int16Bytes(samples[1..]);
      assert b == [LowByte(samples[0]), HighByte(samples[0])] + rest;
      assert b[2..] == rest;
      ViewOfPackedSamples(samples[1..]);
      SampleBytesRoundTrip(samples[0]);
      assert PairsToSamples(b) == [SampleOf(b[0], b[1])] + PairsToSamples(rest);
      assert samples == [samples[0]] + samples[1..];
    }
  }

  /** Bytes read as samples pack back into the same bytes. */
  lemma {:induction false} PackedViewOfBytes(bytes: seq<byte>)
    requires |bytes| % 2 == 0
    ensures Int16Bytes(Int16View(bytes).value) == bytes
    decreases |bytes|
  {
    if bytes != [] {
      var v := Int16View(bytes).value;
      assert v[1..] == PairsToSamples(bytes[2..]);
      PackedViewOfBytes(bytes[2..]);
      ByteSampleRoundTrip(bytes[0], bytes[1]);
      assert bytes == [bytes[0], bytes[1]] + bytes[2..];
    }
  }

  /** The conversion an `Int16Array` store applies: the value modulo 2^16,
      read back in two's complement. */
  function Int16Wrap(x: int): (s: int16)
    ensures (s as int - x) % 65536 == 0
  {
    ((x + 32768) % 65536 - 32768) as int16
  }

  /** A full-scale positive sample (1.0 times 32768) is stored as the most
      negative value, the opposite extreme. */
  lemma WrapFlipsFullScale()
    ensures Int16Wrap(32768) == -32768
  {
  }

  /** The store that scaling into 16 bits evidently intends: the nearest
      16-bit value, which keeps the sign and changes nothing in range. */
  function Int16Clamp(x: int): (s: int16)
    ensures -32768 <= x <= 32767 ==> s as int == x
    ensures forall t: int :: -32768 <= t < 32768 ==> Dist(x, s as int) <= Dist(x, t)
    ensures x >= 0 <==> s >= 0
  {
    if x > 32767 then 32767 else if x < -32768 then -32768 else x as int16
  }

  function Dist(a: int, b: int): nat
  {
    if a < b then b - a else a - b
  }

  /** Wrap-around and clamping agree on every in-range value and differ at
      full scale. */
  lemma WrapAgreesWithClampInRange(x: int)
    ensures -32768 <= x <= 32767 ==> Int16Wrap(x) == Int16Clamp(x)
    ensures Int16Wrap(32768) != Int16Clamp(32768)
  {
  }

  /** Every scaled microphone sample stored into the Int16Array, as the
      store does it: modulo 2^16. */
  function WrapAll(scaled: seq<int>): (s: seq<int16>)
    ensures |s| == |scaled|
    ensures forall k :: 0 <= k < |s| ==> (s[k] as int - scaled[k]) % 65536 == 0
  {
    seq(|scaled|, k requires 0 <= k < |scaled| => Int16Wrap(scaled[k]))
  }

  /** Every scaled microphone sample stored with the corrected, clamping
      store. */
  function ClampAll(scaled: seq<int>): (s: seq<int16>)
    ensures |s| == |scaled|
    ensures forall k :: 0 <= k < |s| ==> s[k] == Int16Clamp(scaled[k])
  {
    seq(|scaled|, k requires 0 <= k < |scaled| => Int16Clamp(scaled[k]))
  }

  /** The two stores agree on samples that are all in range, and differ on
      a single full-scale one. */
  lemma StoresAgreeInRange(scaled: seq<int>)
    ensures (forall k :: 0 <= k < |scaled| ==> -32768 <= scaled[k] <= 32767) ==> WrapAll(scaled) == ClampAll(scaled)
    ensures WrapAll([32768]) != ClampAll([32768])
  {
    if forall k :: 0 <= k < |scaled| ==> -32768 <= scaled[k] <= 32767 {
      forall k | 0 <= k < |scaled|
        ensures WrapAll(scaled)[k] == ClampAll(scaled)[k]
      {
        WrapAgreesWithClampInRange(scaled[k]);
      }
    }
    WrapAgreesWithClampInRange(32768);
    assert WrapAll([32768])[0] == Int16Wrap(32768);
  }

  const PcmMimeType := "audio/pcm;rate=16000"

  datatype Blob = Blob(data: Base64, mimeType: string)

  /** The second half of createBlob: view the stored samples as bytes and
      encode them. */
  method PackSamples(int16s: array<int16>) returns (data: Base64)
    ensures data == Btoa(BinaryOf(Int16Bytes(int16s[..])))
  {
    var packed := Int16Bytes(int16s[..]);
    var view := new byte[|packed|](k requires 0 <= k < |packed| => packed[k]);
    assert view[..] == packed;
    data := Encode(view);
  }

  /** createBlob over the microphone samples already multiplied by 32768 and
      cut to whole numbers: store each into an Int16Array (modulo 2^16),
      view the samples as bytes, encode them. */
  method CreateBlob(scaled: array<int>) returns (blob: Blob)
    ensures blob.mimeType == PcmMimeType
    ensures blob.data == Btoa(BinaryOf(Int16Bytes(WrapAll(scaled[..]))))
  {
    var int16s := new int16[scaled.Length];
    for i := 0 to scaled.Length
      invariant forall k :: 0 <= k < i ==> int16s[k] == Int16Wrap(scaled[k])
    {
      int16s[i] := Int16Wrap(scaled[i]);
    }
    assert int16s[..] == WrapAll(scaled[..]);
    var data := PackSamples(int16s);
    blob := Blob(data, PcmMimeType);
  }

  /** createBlob with the corrected store: each sample clamped to the 16-bit
      range, so full scale stays at the top of the range. */
  method CreateBlobClamped(scaled: array<int>) returns (blob: Blob)
    ensures blob.mimeType == PcmMimeType
    ensures blob.data == Btoa(BinaryOf(Int16Bytes(ClampAll(scaled[..]))))
  {
    var int16s := new int16[scaled.Length];
    for i := 0 to scaled.Length
      invariant forall k :: 0 <= k < i ==> int16s[k] == Int16Clamp(scaled[k])
    {
      int16s[i] := Int16Clamp(scaled[i]);
    }
    assert int16s[..] == ClampAll(scaled[..]);
    var data := PackSamples(int16s);
    blob := Blob(data, PcmMimeType);
  }

  /** What the receiving side decodes from a blob is exactly the stored
      samples, whichever store produced them. */
  lemma BlobRoundTrip(stored: seq<int16>)
    ensures Int16View(BytesOf(Atob(Btoa(BinaryOf(Int16Bytes(stored)))))) == Success(stored)
  {
    DecodeEncodeRoundTrip(Int16Bytes(stored));
    ViewOfPackedSamples(stored);
  }

  // ---------------------------------------------------------------------
  // De-interleaving (components/LiveAssistant.tsx:30-41)

  /** What `ctx.createBuffer` and the Int16Array constructor throw. */
  datatype AudioError = RangeError | NotSupportedError

  /** Where frame `i` of channel `c` sits in interleaved samples. */
  function SampleIndex(numChannels: nat, c: nat, i: nat): nat
  {
    i * numChannels + c
  }

  lemma SampleIndexInRange(numChannels: nat, frames: nat, c: nat, i: nat)
    requires c < numChannels && i < frames
    ensures SampleIndex(numChannels, c, i) < frames * numChannels
  {
    assert (i + 1) * numChannels <= frames * numChannels;
  }

  /** The whole frames of a sample count fit in it. */
  lemma WholeFramesFit(total: nat, numChannels: nat)
    requires numChannels > 0
    ensures (total / numChannels) * numChannels <= total
  {
  }

  lemma PositiveFactor(a: int, b: int)
    requires b > 0 && a * b > 0
    ensures a > 0
  {
  }

  lemma SmallMultipleIsZero(d: int, n: int)
    requires n > 0 && -n < d * n < n
    ensures d == 0
  {
  }

  /** Reading frame by frame and channel by channel touches every sample of
      `frames` whole frames exactly once. */
  lemma SampleIndexExactlyOnce(numChannels: nat, frames: nat)
    requires numChannels > 0
    ensures forall c: nat, i: nat :: c < numChannels && i < frames ==> SampleIndex(numChannels, c, i) < frames * numChannels
    ensures forall j: nat :: j < frames * numChannels ==>
      j % numChannels < numChannels && j / numChannels < frames && SampleIndex(numChannels, j % numChannels, j / numChannels) == j
    ensures forall c1: nat, i1: nat, c2: nat, i2: nat ::
      c1 < numChannels && c2 < numChannels && SampleIndex(numChannels, c1, i1) == SampleIndex(numChannels, c2, i2) ==>
        c1 == c2 && i1 == i2
  {
    forall c: nat, i: nat | c < numChannels && i < frames
      ensures SampleIndex(numChannels, c, i) < frames * numChannels
    {
      SampleIndexInRange(numChannels, frames, c, i);
    }
    forall j: nat | j < frames * numChannels
      ensures j / numChannels < frames
    {
      var q := j / numChannels;
      assert q * numChannels <= j;
      assert (frames - q) * numChannels == frames * numChannels - q * numChannels;
      PositiveFactor(frames - q, numChannels);
    }
    forall c1: nat, i1: nat, c2: nat, i2: nat |
      c1 < numChannels && c2 < numChannels && SampleIndex(numChannels, c1, i1) == SampleIndex(numChannels, c2, i2)
      ensures i1 == i2
    {
      assert (i1 - i2) * numChannels == i1 * numChannels - i2 * numChannels == c2 - c1;
      SmallMultipleIsZero(i1 - i2, numChannels);
    }
  }

  /** decodeAudioData, with the channel data kept as 16-bit samples (the
      division by 32768 is floating point and not modelled): the bytes are
      viewed as samples, and channel `c`, frame `i` of the buffer is the
      sample at `SampleIndex(numChannels, c, i)`. A trailing partial frame is
      dropped, as the buffer's length is the whole number of frames. */
  method DecodeAudioData(data: array<byte>, numChannels: nat) returns (r: Result<array2<int16>, AudioError>)
    ensures |data[..]| % 2 != 0 ==> r == Failure(RangeError)
    ensures |data[..]| % 2 == 0 && (numChannels == 0 || |data[..]| / 2 / numChannels == 0) ==> r == Failure(NotSupportedError)
    ensures |data[..]| % 2 == 0 && numChannels > 0 && |data[..]| / 2 / numChannels > 0 ==>
      var samples := Int16View(data[..]).value;
      && r.Success?
      && r.value.Length0 == numChannels && r.value.Length1 == |samples| / numChannels > 0
      && forall c, i :: 0 <= c < numChannels && 0 <= i < r.value.Length1 ==>
           SampleIndex(numChannels, c, i) < |samples| && r.value[c, i] == samples[SampleIndex(numChannels, c, i)]
  {
    var view := Int16View(data[..]);
    if view.Failure? {
      return Failure(RangeError);
    }
    var samples := view.value;
    if numChannels == 0 || |samples| / numChannels == 0 {
      return Failure(NotSupportedError);
    }
    var frameCount := |samples| / numChannels;
    WholeFramesFit(|samples|, numChannels);
    var buffer := new int16[numChannels, frameCount];
    for channel := 0 to numChannels
      invariant forall c, i :: 0 <= c < channel && 0 <= i < frameCount ==>
        SampleIndex(numChannels, c, i) < |samples| && buffer[c, i] == samples[SampleIndex(numChannels, c, i)]
    {
      for i := 0 to frameCount
        invariant forall c, k :: 0 <= c < channel && 0 <= k < frameCount ==>
          SampleIndex(numChannels, c, k) < |samples| && buffer[c, k] == samples[SampleIndex(numChannels, c, k)]
        invariant forall k :: 0 <= k < i ==>
          SampleIndex(numChannels, channel, k) < |samples| && buffer[channel, k] == samples[SampleIndex(numChannels, channel, k)]
      {
        SampleIndexInRange(numChannels, frameCount, channel, i);
        buffer[channel, i] := samples[SampleIndex(numChannels, channel, i)];
      }
    }
    return Success(buffer);
  }

  // ---------------------------------------------------------------------
  // Playback (components/LiveAssistant.tsx:92-132)

  /** The parts of a server message the handler looks at. */
  datatype LiveMessage = LiveMessage(
    outputTranscription: Option<string>,
    inputTranscription: Option<string>,
    audio: Option<Base64>,
    interrupted: bool)

  function Max(a: int, b: int): int
  {
    if a < b then b else a
  }

  /** The overlay's transcript and playback state. Sources are named by
      numbers; `scheduled` records, for each playing source, the sample
      interval it was started on. */
  class LiveSession {
    var transcriptions: seq<Turn>
    var nextStartTime: int
    var sources: set<nat>
    ghost var scheduled: map<nat, (int, int)>

    /** The playing sources are exactly the scheduled ones; they never
        overlap, and each ends no later than the cursor. */
    ghost predicate Valid()
      reads this
    {
      && 0 <= nextStartTime
      && scheduled.Keys == sources
      && (forall s :: s in sources ==> scheduled[s].0 <= scheduled[s].1 <= nextStartTime)
      && (forall s, t :: s in sources && t in sources && s != t ==>
            scheduled[s].1 <= scheduled[t].0 || scheduled[t].1 <= scheduled[s].0)
    }

    constructor ()
      ensures Valid()
      ensures transcriptions == [] && nextStartTime == 0 && sources == {}
    {
      transcriptions := [];
      nextStartTime := 0;
      sources := {};
      scheduled := map[];
    }

    /** The cursor catches up with the context's clock. */
    method CatchUp(now: int)
      requires Valid() && now >= 0
      modifies this`nextStartTime
      ensures Valid()
      ensures nextStartTime == Max(old(nextStartTime), now)
    {
      nextStartTime := Max(nextStartTime, now);
    }

    /** A decoded chunk of `frames` frames starts at the cursor as source
        `id`, and the cursor moves to its end. */
    method Start(id: nat, frames: nat) returns (start: int)
      requires Valid() && id !in sources
      modifies this`nextStartTime, this`sources, this`scheduled
      ensures Valid()
      ensures start == old(nextStartTime) && nextStartTime == start + frames
      ensures sources == old(sources) + {id}
      ensures scheduled == old(scheduled)[id := (start, start + frames)]
      ensures forall s :: s in old(sources) ==> old(scheduled)[s].1 <= start
    {
      start := nextStartTime;
      scheduled := scheduled[id := (start, start + frames)];
      sources := sources + {id};
      nextStartTime := start + frames;
    }

    /** A source that finished playing leaves the set. */
    method SourceEnded(id: nat)
      requires Valid()
      modifies this`sources, this`scheduled
      ensures Valid()
      ensures sources == old(sources) - {id}
    {
      sources := sources - {id};
      scheduled := map s | s in scheduled && s != id :: scheduled[s];
    }

    /** An interruption stops every playing source (returned as `stopped`),
        empties the set and puts the cursor back to 0. */
    method Interrupt() returns (stopped: set<nat>)
      requires Valid()
      modifies this`nextStartTime, this`sources, this`scheduled
      ensures Valid()
      ensures stopped == old(sources) && sources == {} && nextStartTime == 0
    {
      stopped := sources;
      sources := {};
      scheduled := map[];
      nextStartTime := 0;
    }

    /** The transcript part of onmessage: the model's words, then the
        user's, each merged into the running transcript. */
    method MergeTranscriptions(output: Option<string>, input: Option<string>)
      modifies this`transcriptions
      ensures transcriptions == ApplyTranscriptions(old(transcriptions), output, input)
    {
      var afterOutput := transcriptions;
      if output.Some? {
        afterOutput := AppendTranscript(afterOutput, Model, output.value);
      }
      transcriptions := afterOutput;
      if input.Some? {
        transcriptions := AppendTranscript(transcriptions, User, input.value);
      }
    }

    /** onmessage, for the context's clock `now` and a fresh source number
        `id`. The transcriptions are merged; a non-empty audio payload moves
        the cursor up to `now`, is decoded and starts at the cursor (never
        before `now`, never before what is already playing); an
        interruption then stops everything. A payload of odd length throws
        in the decoder, after the cursor moved, and the rest of the handler
        does not run. `started` is the start of the new chunk, if one
        started; `stopped` holds the sources stopped. */
    method OnMessage(message: LiveMessage, now: int, id: nat) returns (started: Option<int>, stopped: set<nat>)
      requires Valid() && now >= 0 && id !in sources
      modifies this
      ensures Valid()
      ensures transcriptions == ApplyTranscriptions(old(transcriptions), message.outputTranscription, message.inputTranscription)
      ensures started.Some? ==>
        && message.audio.Some? && |message.audio.value.binary| % 2 == 0
        && started.value == Max(old(nextStartTime), now) >= now
        && forall s :: s in old(sources) ==> old(scheduled)[s].1 <= started.value
      ensures started.None? && message.audio.Some? && message.audio.value.binary != [] ==> |message.audio.value.binary| % 2 != 0
      ensures message.audio.Some? && |message.audio.value.binary| % 2 != 0 ==>
        sources == old(sources) && nextStartTime == Max(old(nextStartTime), now) && stopped == {}
      ensures started.Some? && !message.interrupted ==> nextStartTime == started.value + |message.audio.value.binary| / 2
      ensures (message.audio.None? || message.audio.value.binary == []) && !message.interrupted ==>
        nextStartTime == old(nextStartTime)
      ensures !(message.audio.Some? && |message.audio.value.binary| % 2 != 0) ==>
        var playing := if started.Some? then old(sources) + {id} else old(sources);
        && (message.interrupted ==> stopped == playing && sources == {} && nextStartTime == 0)
        && (!message.interrupted ==> stopped == {} && sources == playing)
    {
      MergeTranscriptions(message.outputTranscription, message.inputTranscription);
      started, stopped := None, {};
      if message.audio.Some? && message.audio.value.binary != [] {
        CatchUp(now);
        var bytes := Decode(message.audio.value);
        var decoded := DecodeAudioData(bytes, 1);
        if decoded.Failure? {
          return;
        }
        var start := Start(id, decoded.value.Length1);
        started := Some(start);
      }
      if message.interrupted {
        stopped := Interrupt();
      }
    }
  }
}

=== FILE: result_display.dfy ===
/** The result card (components/ResultDisplay.tsx): the colour of the score
    bar and of the score label, and the card's own tab and copy state. */
module ResultDisplay {

  /** The three score bands. */
  datatype Band = Green | Yellow | Red

  /** The threshold rule both colours follow: above 80, above 60, the rest.
      The bands are disjoint and every score falls in one. */
  function ScoreBand(score: int): (b: Band)
    ensures b == Green <==> score > 80
    ensures b == Yellow <==> 60 < score <= 80
    ensures b == Red <==> score <= 60
  {
    if score > 80 then Green else if score > 60 then Yellow else Red
  }

  function Rank(b: Band): nat
  {
    match b
    case Red => 0
    case Yellow => 1
    case Green => 2
  }

  /** A higher score never gets a worse band. */
  lemma ScoreBandMonotone(s1: int, s2: int)
    requires s1 <= s2
    ensures Rank(ScoreBand(s1)) <= Rank(ScoreBand(s2))
  {
  }

  /** The bar's colour class, as the bar's own nested conditional writes it. */
  function BarClass(score: int): (c: string)
    ensures c == BarColour(ScoreBand(score))
  {
    if score > 80 then "bg-green-500" else if score > 60 then "bg-yellow-500" else "bg-red-500"
  }

  /** The label's colour class, as the label's own nested conditional writes it. */
  function LabelClass(score: int): (c: string)
    ensures c == LabelColour(ScoreBand(score))
  {
    if score > 80 then "text-green-600" else if score > 60 then "text-yellow-600" else "text-red-600"
  }

  function BarColour(b: Band): string
  {
    match b
    case Green => "bg-green-500"
    case Yellow => "bg-yellow-500"
    case Red => "bg-red-500"
  }

  function LabelColour(b: Band): string
  {
    match b
    case Green => "text-green-600"
    case Yellow => "text-yellow-600"
    case Red => "text-red-600"
  }

  /** Both conditionals pick their colour by the same band, so the bar and
      the label always show the same colour: two scores get the same bar
      class exactly when they get the same label class. */
  lemma ColoursAgree(s1: int, s2: int)
    ensures BarClass(s1) == BarClass(s2) <==> LabelClass(s1) == LabelClass(s2)
    ensures BarClass(s1) == BarClass(s2) <==> ScoreBand(s1) == ScoreBand(s2)
  {
    assert "bg-green-500"[3] == 'g' && "bg-yellow-500"[3] == 'y' && "bg-red-500"[3] == 'r';
    assert "text-green-600"[5] == 'g' && "text-yellow-600"[5] == 'y' && "text-red-600"[5] == 'r';
  }

  datatype Tab = Optimized | Variants | Reasoning

  /** The card's own state. */
  class ResultView {
    var activeTab: Tab
    var copied: bool

    constructor ()
      ensures activeTab == Optimized && !copied
    {
      activeTab := Optimized;
      copied := false;
    }

    /** A tab button's onClick. */
    method SelectTab(tab: Tab)
      modifies this`activeTab
      ensures activeTab == tab
    {
      activeTab := tab;
    }

    /** copyToClipboard: the text written (returned here) is the text given,
        and the card shows it was copied. */
    method CopyToClipboard(text: string) returns (written: string)
      modifies this`copied
      ensures written == text && copied
    {
      written := text;
      copied := true;
    }
  }
}

=== FILE: text.dfy ===
/** The string built-ins the application relies on: `trim`, `toLowerCase` and `includes`. */
module Text {

  /** The code points `String.prototype.trim` strips: the WhiteSpace and
      LineTerminator productions of ECMA-262 (TAB, VT, FF, SP, NBSP, ZWNBSP,
      every Space_Separator, LF, CR, LS and PS). */
  predicate IsSpace(c: char)
  {
    || c == '\t' || c == '\n' || c == '\U{000B}' || c == '\U{000C}' || c == '\r'
    || c == ' ' || c == '\U{00A0}' || c == '\U{1680}'
    || ('\U{2000}' <= c <= '\U{200A}')
    || c == '\U{2028}' || c == '\U{2029}' || c == '\U{202F}' || c == '\U{205F}'
    || c == '\U{3000}' || c == '\U{FEFF}'
  }

  predicate AllSpace(s: string)
  {
    forall k :: 0 <= k < |s| ==> IsSpace(s[k])
  }

  /** Drops the leading white space. */
  function TrimStart(s: string): string
  {
    if s != [] && IsSpace(s[0]) then TrimStart(s[1..]) else s
  }

  /** Drops the trailing white space. */
  function TrimEnd(s: string): string
  {
    if s != [] && IsSpace(s[|s| - 1]) then TrimEnd(s[..|s| - 1]) else s
  }

  /** `s.trim()`. */
  function Trim(s: string): string
  {
    TrimEnd(TrimStart(s))
  }

  /** TrimStart leaves a suffix of `s`; everything it drops is white space and
      what is left does not start with any. */
  lemma {:induction false} TrimStartSpec(s: string)
    ensures var r := TrimStart(s);
      && |r| <= |s| && r == s[|s| - |r|..]
      && AllSpace(s[..|s| - |r|])
      && (r == [] || !IsSpace(r[0]))
  {
    if s != [] && IsSpace(s[0]) {
      TrimStartSpec(s[1..]);
      var r := TrimStart(s[1..]);
      assert s[1..][..|s| - 1 - |r|] == s[1..|s| - |r|];
    }
  }

  /** TrimEnd leaves a prefix of `s`; everything it drops is white space and
      what is left does not end with any. */
  lemma {:induction false} TrimEndSpec(s: string)
    ensures var r := TrimEnd(s);
      && |r| <= |s| && r == s[..|r|]
      && AllSpace(s[|r|..])
      && (r == [] || !IsSpace(r[|r| - 1]))
  {
    if s != [] && IsSpace(s[|s| - 1]) {
      TrimEndSpec(s[..|s| - 1]);
      var r := TrimEnd(s[..|s| - 1]);
      assert s[..|s| - 1][|r|..] + [s[|s| - 1]] == s[|r|..];
    }
  }

  /** `s.trim()` is a slice of `s` that neither starts nor ends with white
      space, and it is empty exactly when `s` is all white space. */
  lemma TrimSpec(s: string)
    ensures var r := Trim(s);
      && |r| <= |s|
      && (r == [] <==> AllSpace(s))
      && (r == [] || (!IsSpace(r[0]) && !IsSpace(r[|r| - 1])))
  {
    var t := TrimStart(s);
    TrimStartSpec(s);
    TrimEndSpec(t);
    var r := TrimEnd(t);
    assert r == [] ==> t == t[|r|..];
    assert r == [] ==> s == s[..|s| - |t|] + t;
  }

  /** Trimming a trimmed string changes nothing. */
  lemma TrimIdempotent(s: string)
    ensures Trim(Trim(s)) == Trim(s)
  {
    var r := Trim(s);
    TrimSpec(s);
    assert TrimStart(r) == r;
    assert TrimEnd(r) == r;
  }

  /** ASCII upper-case letters map to their lower-case forms; every other
      character is left as it is. */
  function LowerChar(c: char): (d: char)
    ensures ('A' <= c <= 'Z') <==> (d != c)
    ensures 'A' <= c <= 'Z' ==> 'a' <= d <= 'z' && d as int - c as int == 32
  {
    if 'A' <= c <= 'Z' then (c as int + 32) as char else c
  }

  /** `s.toLowerCase()`, restricted to ASCII letters. */
  function Lower(s: string): (r: string)
    ensures |r| == |s|
    ensures forall k :: 0 <= k < |s| ==> r[k] == LowerChar(s[k])
  {
    seq(|s|, k requires 0 <= k < |s| => LowerChar(s[k]))
  }

  /** Lower-casing twice is lower-casing once. */
  lemma LowerIdempotent(s: string)
    ensures Lower(Lower(s)) == Lower(s)
  {
    assert forall k :: 0 <= k < |s| ==> LowerChar(LowerChar(s[k])) == LowerChar(s[k]);
  }

  predicate StartsWith(s: string, p: string)
  {
    |p| <= |s| && s[..|p|] == p
  }

  /** `p` occurs in `s` at position `i`. */
  ghost predicate OccursAt(s: string, p: string, i: int)
  {
    0 <= i && i + |p| <= |s| && s[i..i + |p|] == p
  }

  /** `s.includes(p)`. */
  function Contains(s: string, p: string): bool
    decreases |s|
  {
    StartsWith(s, p) || (s != [] && Contains(s[1..], p))
  }

  /** An occurrence past the first position is an occurrence in the tail. */
  lemma OccursAtTail(s: string, p: string, i: int)
    requires s != [] && 1 <= i
    ensures OccursAt(s, p, i) <==> OccursAt(s[1..], p, i - 1)
  {
    if i + |p| <= |s| {
      assert s[1..][i - 1..i - 1 + |p|] == s[i..i + |p|];
    }
  }

  /** `Contains` holds exactly when `p` occurs somewhere in `s`. */
  lemma {:induction false} ContainsIff(s: string, p: string)
    ensures Contains(s, p) <==> exists i :: OccursAt(s, p, i)
    decreases |s|
  {
    if s != [] {
      ContainsIff(s[1..], p);
    }
    if Contains(s, p) {
      if StartsWith(s, p) {
        assert OccursAt(s, p, 0);
      } else {
        var i :| OccursAt(s[1..], p, i);
        OccursAtTail(s, p, i + 1);
      }
    }
    if exists i :: OccursAt(s, p, i) {
      var i :| OccursAt(s, p, i);
      if i == 0 {
        assert StartsWith(s, p);
      } else {
        OccursAtTail(s, p, i);
        assert Contains(s[1..], p);
      }
    }
  }

  /** Every character of a pattern that occurs in `s` is a character of `s`;
      so a pattern holding a character `s` lacks does not occur in it. */
  lemma ContainsOnlyCharsOf(s: string, p: string, c: char)
    requires c in p && c !in s
    ensures !Contains(s, p)
  {
    var k :| 0 <= k < |p| && p[k] == c;
    forall i | 0 <= i && i + |p| <= |s| ensures !OccursAt(s, p, i) {
      assert s[i..i + |p|][k] == s[i + k] != c;
    }
    ContainsIff(s, p);
  }

  /** A string contains whatever is written in its middle. */
  lemma ContainsMiddle(a: string, t: string, b: string)
    ensures Contains(a + t + b, t)
  {
    var s := a + t + b;
    assert s[|a|..|a| + |t|] == t;
    assert OccursAt(s, t, |a|);
    ContainsIff(s, t);
  }
}

=== FILE: types.dfy ===
/** The records and enumerations the application passes around (types.ts). */
module Types {

  datatype Option<+T> = None | Some(value: T)

  /** A computation that either produces a value or throws an error carrying a message. */
  datatype Result<+T, +E> = Success(value: T) | Failure(error: E)

  /** `undefined`/`null` and the empty string are both read as "" by `x || ""`. */
  function OrEmpty(v: Option<string>): string
  {
    if v.Some? then v.value else ""
  }

  /** One alternative phrasing of the optimized prompt (`label` is a Dafny keyword, hence `labelText`). */
  datatype Variant = Variant(labelText: string, content: string)

  /** What the hosted model returns for one optimization request. The score is
      whatever the service reports; nothing checks that it lies in 0..100. */
  datatype OptimizationResult = OptimizationResult(
    optimizedPrompt: string,
    reasoning: string,
    score: int,
    tips: seq<string>,
    variants: seq<Variant>)

  /** One entry of the saved history; `tag` is absent when the user gave none. */
  datatype PromptHistoryItem = PromptHistoryItem(
    id: string,
    original: string,
    result: OptimizationResult,
    timestamp: int,
    tag: Option<string>)

  datatype Tone = Professional | Creative | Concise | Instructional | Academic

  datatype Role = General | ExpertCoder | Writer | DataScientist | Marketer

  /** The string value of each Tone member, which is what the request text embeds. */
  function ToneValue(t: Tone): string
  {
    match t
    case Professional => "Professional"
    case Creative => "Creative"
    case Concise => "Concise"
    case Instructional => "Instructional"
    case Academic => "Academic"
  }

  /** The string value of each Role member. */
  function RoleValue(r: Role): string
  {
    match r
    case General => "General AI"
    case ExpertCoder => "Expert Developer"
    case Writer => "Creative Writer"
    case DataScientist => "Data Scientist"
    case Marketer => "Marketing Strategist"
  }
}
